=== FILE: README.md ===
# Face-tracking lamp controller: a Dafny model

The Android app pairs a front-camera face tracker with an actuator reached
over a Bluetooth RFCOMM link. On every redraw of the camera view the
activity folds the detected faces into one envelope, measures where it
sits, and — at most once every 150 ms — sends one newline-terminated
command (`search`, `left,<h>`, `right,<h>`, `up,<v>`, `down,<v>`,
`forward,<w>`, `back,<w>`, `okay,<w>,<h>`). Spoken phrases map to further
commands (`light,`, `nolight,`, `play,`, …), and a received `PROXIMITY`
line starts voice recognition, at most once every five seconds. The
`BluetoothService` class owns the link: a state value (NONE, LISTEN,
CONNECTING, CONNECTED), at most one connect thread and at most one
communication thread, and posts state changes, the device name, toasts,
written bytes and read lines to the activity's handler.

The model is functional: immutable records and pure transition functions.

- `JavaInt` — Java `int` arithmetic: 32-bit wrap-around and division that
  truncates toward zero (Dafny's `/` is Euclidean: Java halves -601 to -300,
  Dafny to -301, and -300 is not in the left band).
- `Decimal` — `Integer.toString`, with a parser as its inverse.
- `Utf8` — `String.getBytes()` under the platform charset, with a decoder as
  its inverse.
- `Text` — ASCII lower-casing, `String.contains`, and the first
  comma-separated field.
- `Commands` — the tracking commands and their line format, with the
  receiving side's parser.
- `Tracking` — the controller inside `CameraSurfaceView.draw`: orientation,
  envelope, measurement, rate gate, band priority.
- `Voice` — keyword-to-message mapping of the voice-result handler.
- `Listen` — the `PROXIMITY` check and the `doListen` debounce.
- `Link` — `BluetoothService`: one function per synchronized method and per
  thread completion. Threads and sockets are handles: connect thread `k` owns
  socket `k`, and closing a socket adds its number to `closed`.
- `LinkRuns` — the service driven by any interleaving of calls and thread
  completions, with the invariant it keeps.
- `GuardedLink` — the same service with a currency check on thread
  completions, and what that check guarantees.
- `Ui` — the activity's handler: status text, device name, received line,
  listen trigger.
- `App` — `sendMessage` and its callers: the per-redraw step and the
  voice-result handler.

The clock (`System.currentTimeMillis`) is a `now` parameter; whether a
stream write succeeds is a `streamOk` parameter; asynchronous completions
(connect succeeded or failed, line read, read failed) are inputs.

### Where the code departs from the expected behaviour

A connect attempt or a communication thread that completes after it was
superseded would be expected to be discarded. The code has no such check,
and the model follows the code:

- The success path of a connect thread clears `mConnectThread` whatever it
  holds (BluetoothService.java:234-236) and then calls `onConnected`.
  `LinkRuns.SupersededSuccessConnects` shows a superseded attempt ending
  CONNECTED on its own closed socket, with the newer attempt's thread
  neither tracked nor closed.
- `onConnected` begins with `reset()` (BluetoothService.java:121-128), so an
  attempt started between the two halves of the success path is cancelled
  (`LinkRuns.LateOnConnectedCancelsNewer`).
- A superseded connect thread whose `connect()` throws calls
  `connectionFailed`, which resets the newer attempt too
  (`LinkRuns.SupersededFailureResetsNewer`).
- Reconnecting while connected cancels the new attempt. The `reset()` inside
  `startConnectThread` closes the session's socket
  (BluetoothService.java:101, 317). The old communication thread's read then
  throws, and its `connectionLost` resets whatever is current
  (BluetoothService.java:295-298, 168-178). See
  `LinkRuns.StaleLossResetsNewer`.
- In the same reconnect, a line the old communication thread read before
  its socket was closed is still posted to the handler
  (BluetoothService.java:290-294), so it can start a listen although that
  thread is no longer the session (`LinkRuns.StaleLinePosted`).

`GuardedLink` is the variant with the check: a connect success, connect
failure, line read or failed read from a thread that is not current changes
nothing, while the current session's lines are posted as before. For it, `GuardedLink.GuardedRunTidy` proves
that no session ever runs on a closed socket and that no connect thread is
left running untracked. `GuardedLink.SupersededSuccessUntidy` shows the code
as written breaks that property.

Further points where the code is followed:

- `reset()` on an idle service is not silent. It posts
  `StateChange(NONE)` again (`Link.ResetTwice`).
- The rate gate is strict. A command is sent only when more than 150 ms
  have passed, so at exactly 150 ms nothing is sent.
- A failed stream write is only logged. It posts no event and changes no
  state.
- When the remote end closes the stream, `readLine` returns null
  (BluetoothService.java:291). The communication thread then ends without
  calling `connectionLost`, so the service stays CONNECTED with no reader.
  The model has no input for this, because it changes no state and posts
  nothing.
- `getName()` may return null (BluetoothService.java:133). `Device.name` is
  optional, and the handler shows a null name as empty text.
- The LISTEN state is declared but never entered.

## Model

| member | source | states |
|---|---|---|
| JavaInt.Wrap32Congruent | src/com/example/camera/CameraActivity.java:493-524 | Java `int` arithmetic keeps the result in the 32-bit range and congruent to the exact value modulo 2^32 |
| JavaInt.JavaDiv | src/com/example/camera/CameraActivity.java:522-523 | the quotient truncates toward zero: its magnitude is the largest multiple count not exceeding the dividend's magnitude, and its sign is the sign of the exact quotient |
| JavaInt.HalfTruncates | src/com/example/camera/CameraActivity.java:522-523 | halving agrees with Euclidean division except for odd negative sums, where it is one larger |
| Decimal.IntRoundTrip | src/com/example/camera/CameraActivity.java:534 | the decimal text of any integer parses back to that integer |
| Decimal.IntToStringCanonical | src/com/example/camera/CameraActivity.java:534 | the rendering of any integer is canonical: digits with no padding zero, after a minus sign only for a negative value, never "-0" |
| Decimal.CanonicalUnique | src/com/example/camera/CameraActivity.java:534 | canonical text that reads as n is exactly the rendering of n, so no other text of n ("0400", "-0") is ever sent |
| Utf8.Encode | src/com/example/camera/CameraActivity.java:320 | each character becomes one to four bytes, so the bytes are at least as many as the characters and at most four times as many |
| Utf8.RoundTrip | src/com/example/camera/CameraActivity.java:320 | the bytes written for any message decode back to the message |
| Utf8.AsciiIsBytewise | src/com/example/camera/CameraActivity.java:320 | an ASCII message goes out as one byte per character, each equal to the character code |
| Text.ToLower | src/com/example/camera/CameraActivity.java:212 | lower-casing keeps the length and maps exactly the letters A-Z to a-z |
| Text.ContainsIffOccurs | src/com/example/camera/CameraActivity.java:212 | the keyword test succeeds exactly when the keyword occurs at some position of the phrase |
| Text.FirstToken | src/com/example/camera/CameraActivity.java:609-610 | the first field is a comma-free prefix of the line, ending at the first comma or at the end of the line |
| Commands.Format | src/com/example/camera/CameraActivity.java:530-555 | every command line starts with its command word and ends in its only newline |
| Commands.ParseFormat | src/com/example/camera/CameraActivity.java:530-555 | every command line reads back, on the receiving side, as the command it was built from |
| Commands.FormatInjective | src/com/example/camera/CameraActivity.java:530-555 | distinct commands are sent as distinct lines |
| Tracking.OrientInView | src/com/example/camera/CameraActivity.java:493-496 | for a face inside the field of view, the oriented box's left, top, right and bottom are exactly the negated top, left, bottom and right, with no wrap-around |
| Tracking.Envelope | src/com/example/camera/CameraActivity.java:461-514 | the envelope encloses the seed and every rotated, mirrored face: boxes hold inverted bounds, and its left and top are at least each one's, its right and bottom at most each one's |
| Tracking.EnvelopeIsBoundingBox | src/com/example/camera/CameraActivity.java:461-514 | for one or more faces in view the envelope is their bounding box: its left is minus the smallest top, its top minus the smallest left, its right minus the largest bottom, its bottom minus the largest right |
| Tracking.WidthSpansFaces | src/com/example/camera/CameraActivity.java:509-524 | the measured width of faces in view is the extent of their union, from the smallest top to the largest bottom, so faces far apart read as one wide face |
| Tracking.Combine | src/com/example/camera/CameraActivity.java:508-513 | one fold step encloses both the running envelope and the new face, and each of its sides is taken from one of the two |
| Tracking.EnvelopeAttained | src/com/example/camera/CameraActivity.java:461-514 | each side of the envelope equals the seed's side or that of some face, so the fold invents no coordinate |
| Tracking.Select | src/com/example/camera/CameraActivity.java:530-555 | the command is that of the band that holds and that no higher-priority band holds (no face, left, right, up, down, forward, back, okay), carrying that band's measurement |
| Tracking.Tick | src/com/example/camera/CameraActivity.java:528-558 | a line is produced exactly when more than 150 ms have passed; then the last-command time becomes now and the line reads back as the selected command; otherwise the time is unchanged |
| Tracking.TickWritesFormat | src/com/example/camera/CameraActivity.java:530-557 | when the gate opens the line is exactly the selected command's text, its numbers rendered as Java renders them |
| Tracking.NoFaceSearches | src/com/example/camera/CameraActivity.java:516-531 | with no face and the gate open the line is exactly "search\n", whatever the empty envelope measures |
| Tracking.OkayIff | src/com/example/camera/CameraActivity.java:530-555 | okay is chosen exactly when a face is seen, -300 ≤ h ≤ 300, -260 ≤ v ≤ 260 and 500 ≤ width ≤ 750 |
| Tracking.HorizontalBeatsDepth | src/com/example/camera/CameraActivity.java:533-552 | a face at h = -400 and width 1000 is steered left, not back |
| Tracking.SingleFace | src/com/example/camera/CameraActivity.java:486-524 | for one face inside the field of view, width = bottom - top, h = (-top - bottom) / 2 and v = (-left - right) / 2 truncated, both inside the field of view |
| Tracking.MeasureInView | src/com/example/camera/CameraActivity.java:522-524 | for an envelope inside the field of view, the centres are the exact sums halved with truncation toward zero, the width is left minus right, and both centres stay in the field of view |
| Tracking.EnvelopeInView | src/com/example/camera/CameraActivity.java:461-524 | for any faces inside the field of view, the envelope and both centres stay in [-1000, 1000] and the width in [-2000, 2000] |
| Tracking.TruncationKeepsCentre | src/com/example/camera/CameraActivity.java:522-555 | the face with top 1 and bottom 600 measures h = -300 and is judged okay, where halving -601 with Euclidean division would give -301 and steer it left |
| Tracking.QuietWithinInterval | src/com/example/camera/CameraActivity.java:528-558 | redraws no more than 150 ms after the last command time send nothing |
| Tracking.AtMostOnePerBurst | src/com/example/camera/CameraActivity.java:528-558 | redraws whose clock readings lie within 150 ms of one another send at most one line |
| Voice.FirstHit | src/com/example/camera/CameraActivity.java:212-240 | the index found is the first keyword occurring in the phrase, or the end of the list when none occurs |
| Voice.Message | src/com/example/camera/CameraActivity.java:203-243 | no results, or no keyword in the lower-cased best result, send nothing; otherwise the message of the first keyword in list order that occurs |
| Voice.CaseInsensitive | src/com/example/camera/CameraActivity.java:209-212 | only the best result matters, and only up to letter case |
| Voice.PlayWinsOverStop | src/com/example/camera/CameraActivity.java:222-230 | a phrase holding both "play" and "stop" and no light command sends "play,\n" |
| Voice.MessageIsFirstHit | src/com/example/camera/CameraActivity.java:212-240 | when keyword k is the first in list order that occurs in the lower-cased best result, the message is keyword k's |
| Listen.ProximityIff | src/com/example/camera/CameraActivity.java:609-612 | a line triggers listening exactly when it is "PROXIMITY" or starts with "PROXIMITY," |
| Listen.Request | src/com/example/camera/CameraActivity.java:342-350 | recognition starts exactly when at least 5000 ms have passed since the last start, and only then does the last-start time become now |
| Listen.StartsSpaced | src/com/example/camera/CameraActivity.java:342-350 | over any series of requests, starts are at least 5000 ms after the initial time and after each other |
| Link.Code | src/com/example/camera/BluetoothService.java:57-60 | state codes lie in 0..3, and 0 is exactly NONE, the state of a new service |
| Link.CodeInjective | src/com/example/camera/BluetoothService.java:57-60 | distinct states are posted as distinct codes |
| Link.Init | src/com/example/camera/BluetoothService.java:66-70 | a new service is idle, has nothing running, has posted nothing, and satisfies the invariant |
| Link.SetState | src/com/example/camera/BluetoothService.java:82-85 | the state changes and exactly one state-change message is posted; handles are untouched |
| Link.Reset | src/com/example/camera/BluetoothService.java:98-104 | both handles cleared and their sockets closed, state NONE, exactly one StateChange(NONE) posted even when already idle, invariant kept |
| Link.StartConnect | src/com/example/camera/BluetoothService.java:107-118 | ends CONNECTING with a fresh, unclosed attempt for the device and no session, prior threads closed, posting StateChange(NONE) then StateChange(CONNECTING) |
| Link.ClearAttempt | src/com/example/camera/BluetoothService.java:234-236 | the current attempt is forgotten, whichever it is, with nothing closed or posted and no thread started |
| Link.OnConnected | src/com/example/camera/BluetoothService.java:121-138 | ends CONNECTED with a session on the given socket and no attempt, posting StateChange(NONE), DeviceName, StateChange(CONNECTED) in that order, after closing exactly what was running and starting no connect thread |
| Link.ConnectSucceeded | src/com/example/camera/BluetoothService.java:233-239 | a connect thread's success always ends CONNECTED on its own socket, whatever attempt is current; the only socket it closes is the previous session's, so the current attempt, which it forgets, stays open |
| Link.ConnectFailed | src/com/example/camera/BluetoothService.java:220-230 | one toast "Unable to connect device" is posted and the service resets to NONE; the sockets closed are exactly the failing one and whatever was running |
| Link.ConnectionLost | src/com/example/camera/BluetoothService.java:168-178 | one toast "Device connection was lost", then reset to NONE; the sockets closed are exactly those that were running |
| Link.LineRead | src/com/example/camera/BluetoothService.java:290-294 | a read line is posted and nothing else changes |
| Link.Write | src/com/example/camera/BluetoothService.java:142-152 | nothing changes but the log, which gains exactly the written bytes when connected with a session and the stream write succeeds, and nothing otherwise |
| Link.WriteWhenConnected | src/com/example/camera/BluetoothService.java:142-152 | under the invariant, a connected service posts the bytes exactly when the stream write succeeds |
| Link.ResetTwice | src/com/example/camera/BluetoothService.java:98-104 | a second reset leaves the state as the first did but posts another StateChange(NONE) |
| LinkRuns.Step | src/com/example/camera/BluetoothService.java:98-239 | every transition, including a completion from a superseded thread, keeps the invariant |
| LinkRuns.StepPosts | src/com/example/camera/BluetoothService.java:82-85 | every transition only appends to the log, and never a LISTEN announcement |
| LinkRuns.RunKeepsShape | src/com/example/camera/BluetoothService.java:98-239 | over any interleaving of calls and completions the invariant holds, the log only grows and LISTEN is never announced |
| LinkRuns.FromInit | src/com/example/camera/BluetoothService.java:57-138 | from construction: never LISTEN, never an attempt and a session together, CONNECTED iff a session, NONE implies nothing running |
| LinkRuns.SupersededSuccessConnects | src/com/example/camera/BluetoothService.java:233-239 | connect A, connect B, then A succeeds: CONNECTED on A's closed socket with A's name, B's thread untracked and unclosed |
| LinkRuns.LateOnConnectedCancelsNewer | src/com/example/camera/BluetoothService.java:121-128 | an attempt started between a thread's clearing of the attempt and its onConnected is closed by that onConnected |
| LinkRuns.SupersededFailureResetsNewer | src/com/example/camera/BluetoothService.java:220-230 | a superseded thread's failure resets the newer attempt as well |
| LinkRuns.StaleLossResetsNewer | src/com/example/camera/BluetoothService.java:168-178 | connect A, A succeeds, connect B: the old reader's failed read resets B, leaving NONE with both sockets closed |
| LinkRuns.StaleLinePosted | src/com/example/camera/BluetoothService.java:286-294 | connect A, A succeeds, connect B: a line the old reader read is still posted, with no session and its socket closed |
| GuardedLink.GuardedStep | src/com/example/camera/BluetoothService.java:220-298 | with a currency check on every thread completion (connect success or failure, line read, failed read), each transition keeps the invariant and keeps the service tidy: no running socket is closed and every opened socket is running or closed |
| GuardedLink.StaleCompletionDiscarded | src/com/example/camera/BluetoothService.java:220-239 | with the check, a success, failure, line read or failed read from a thread that is not current changes nothing |
| GuardedLink.OnlyCurrentConnects | src/com/example/camera/BluetoothService.java:233-239 | with the check, a step that newly reaches CONNECTED is the current connect thread's success, and the session runs on its socket |
| GuardedLink.OnlyCurrentNamed | src/com/example/camera/BluetoothService.java:130-135 | with the check, a device name is only announced by the current connect thread's success, and it is that thread's device's name |
| GuardedLink.GuardedRunTidy | src/com/example/camera/BluetoothService.java:98-239 | with the check, every run from a tidy service stays tidy, so the session never runs on a closed socket |
| GuardedLink.GuardedFromInit | src/com/example/camera/BluetoothService.java:66-239 | with the check, every run from construction is tidy: no session on a closed socket and no connect thread left running untracked |
| GuardedLink.SupersededSuccessUntidy | src/com/example/camera/BluetoothService.java:233-239 | the code as written is not tidy after a superseded success: its session runs on a closed socket |
| GuardedLink.GuardedSupersededSuccess | src/com/example/camera/BluetoothService.java:233-239 | with the check, a superseded success is discarded and the newer attempt stays CONNECTING |
| GuardedLink.GuardedSupersededFailure | src/com/example/camera/BluetoothService.java:220-230 | with the check, a superseded failure is discarded and the newer attempt stays CONNECTING |
| GuardedLink.GuardedStaleLine | src/com/example/camera/BluetoothService.java:286-294 | with the check, the old reader's line after a reconnect is not posted and the newer attempt stays CONNECTING |
| GuardedLink.CurrentLinePosted | src/com/example/camera/BluetoothService.java:290-294 | with the check, a line read by the current session is posted and nothing else changes |
| GuardedLink.GuardedStaleLoss | src/com/example/camera/BluetoothService.java:295-298 | with the check, the old reader's failed read after a reconnect is discarded and the newer attempt stays CONNECTING |
| Ui.StatusText | src/com/example/camera/CameraActivity.java:585-598 | for the state code a message carries: CONNECTED's code shows the device name (empty when null), CONNECTING's shows "Connecting...", NONE's and LISTEN's show "Not connected.", and any other code leaves the status unchanged |
| Ui.Handle | src/com/example/camera/CameraActivity.java:584-626 | state changes set the status, a device name is remembered, a read line is displayed and starts listening exactly when it is a proximity line and the debounce allows |
| Ui.ConnectedShowsName | src/com/example/camera/BluetoothService.java:130-137 | handling onConnected's messages in order leaves the status showing the new device's name |
| App.SendMessage | src/com/example/camera/CameraActivity.java:305-326 | without a service nothing exists to change; otherwise the message's bytes are appended to the log exactly when the message is non-empty, the service connected and the stream write succeeds, and nothing changes otherwise |
| App.OnFrame | src/com/example/camera/CameraActivity.java:528-558 | the last-command time advances when the gate opens, connected or not; a send happens only when the gate opens on a connected service |
| App.FrameOnWire | src/com/example/camera/CameraActivity.java:528-557 | the bytes a redraw writes decode and parse as the command the controller selected |
| App.ConnectedFrameSends | src/com/example/camera/CameraActivity.java:528-557 | a connected service receives a line on every redraw that passes the gate |
| App.OnVoiceResult | src/com/example/camera/CameraActivity.java:203-243 | without a keyword nothing changes; with one, the keyword's message is sent exactly when the service is connected with a session and the stream write succeeds, and nothing else is ever sent |
| App.ConnectedVoiceSends | src/com/example/camera/CameraActivity.java:212-243 | a connected service with a working stream receives exactly the bytes of the first matching keyword's message |

## Left out

- Threads, `synchronized` interleavings and socket or stream I/O: threads and sockets are numbered handles, each synchronized method is one atomic transition, and completions are inputs. This covers `connect`, `close`, stream reads and writes, and `cancelDiscovery`.
- Line framing by `BufferedReader.readLine`: received lines are inputs. The handler rebuilds a line from its bytes using the character count (CameraActivity.java:608). That is the identity for ASCII lines, and it is not modelled for lines with multi-byte characters.
- A line made only of commas makes `split(",")[0]` throw (CameraActivity.java:609-610). The model uses the text before the first comma instead.
- Android platform code: camera open and preview, face-detection callbacks, canvas drawing, the pixel scaling (CameraActivity.java:500-506), toasts on screen, wake locks, menus, intents, device discovery, RecognizerIntent and TextToSpeech.
- The fall-through after `REQUEST_ENABLE_BT` (CameraActivity.java:196-197) is result-dispatch plumbing. The voice mapping is modelled on its own.
- A failure to create the socket in the `ConnectThread` constructor (BluetoothService.java:201-207) and a failure to get the streams (BluetoothService.java:270-275) are platform error handling.
- `getState` reads the `state` field and has no member of its own.
- The toasts the activity shows for voice commands, for unmatched phrases and on a device name are on-screen output only.
- Text.ToLower: lower-cases ASCII letters only, because Java's locale-dependent Unicode `toLowerCase` is platform behaviour.
- Tracking.Tick: sets the last-command time to the same `now` that opened the gate. The source reads the clock a second time at CameraActivity.java:557, and the model does not represent the time between the two reads.
- Tracking.Tick: time differences are unbounded integers. The source subtracts Java `long` values, which cannot wrap for real clock readings.
- Utf8.Encode: characters are Unicode scalar values. Java strings holding unpaired surrogates are not modelled.
- The read loop ending at end of stream (BluetoothService.java:291) has no input of its own: the thread ends without changing state or posting anything.

=== FILE: app.dfy ===
/**
 * The activity's glue: sendMessage and its two callers in the core, the
 * per-redraw tracking step and the voice-result handler.
 */
module App {
  import opened Wrappers
  import opened Utf8
  import opened Link
  import opened Commands
  import Tracking
  import Voice
  import Text

  /** The one event a successful send appends. */
  predicate SentExactly(before: Service, after: Service, bytes: seq<byte>) {
    after == before.(events := before.events + [Wrote(bytes)])
  }

  /** A send always shows in the log. */
  lemma SendChanges(s: Service, bytes: seq<byte>)
    ensures !SentExactly(s, s, bytes)
  {
    assert |s.events + [Wrote(bytes)]| == |s.events| + 1;
  }

  /** The log records which bytes were sent. */
  lemma SentDetermines(s: Service, r: Service, b1: seq<byte>, b2: seq<byte>)
    requires SentExactly(s, r, b1) && SentExactly(s, r, b2)
    ensures b1 == b2
  {
    assert r.events[|s.events|] == Wrote(b1);
  }

  /** sendMessage: an empty message is dropped; without a service (the
      field is still null, and the exception is swallowed) or unless the
      service is connected nothing is written; otherwise the message's
      bytes go to the service's write. */
  function SendMessage(service: Option<Service>, message: string, streamOk: bool): (r: Option<Service>)
    ensures service.None? ==> r.None?
    ensures service.Some? ==> r.Some? && (r.value == service.value || SentExactly(service.value, r.value, Encode(message)))
    ensures service.Some? && r.Some? ==>
      (SentExactly(service.value, r.value, Encode(message)) <==>
        |message| > 0 && service.value.state == Connected && service.value.session.Some? && streamOk)
  {
    match service
    case None => None
    case Some(s) =>
      SendChanges(s, Encode(message));
      if |message| == 0 || s.state != Connected then service
      else Some(Write(s, Encode(message), streamOk))
  }

  /** What a redraw leaves behind: the service after any send, and the time
      of the last command. */
  datatype FrameResult = FrameResult(service: Option<Service>, lastCommand: int)

  /** One redraw: the tracking step, then sendMessage with its line. */
  function OnFrame(service: Option<Service>, lastCommand: int, faces: seq<Tracking.Rect>, now: int, streamOk: bool)
    : (r: FrameResult)
    ensures now - lastCommand > Tracking.MinInterval ==> r.lastCommand == now
    ensures now - lastCommand <= Tracking.MinInterval ==> r.lastCommand == lastCommand && r.service == service
    ensures r.service.None? <==> service.None?
    ensures service.Some? && r.service.value != service.value ==>
      && now - lastCommand > Tracking.MinInterval
      && service.value.state == Connected && streamOk
      && exists bytes :: SentExactly(service.value, r.service.value, bytes)
  {
    var t := Tracking.Tick(faces, now, lastCommand);
    match t.line
    case None => FrameResult(service, t.last)
    case Some(line) => FrameResult(SendMessage(service, line, streamOk), t.last)
  }

  /** The bytes a redraw writes read back, on the other end, as the command
      the controller selected. */
  lemma FrameOnWire(s: Service, lastCommand: int, faces: seq<Tracking.Rect>, now: int, bytes: seq<byte>)
    requires SentExactly(s, OnFrame(Some(s), lastCommand, faces, now, true).service.value, bytes)
    ensures Decode(bytes).Some?
    ensures Parse(Decode(bytes).value) == Some(Tracking.Select(|faces|, Tracking.Measure(Tracking.Envelope(faces))))
  {
    var t := Tracking.Tick(faces, now, lastCommand);
    var r := OnFrame(Some(s), lastCommand, faces, now, true).service.value;
    SendChanges(s, bytes);
    assert t.line.Some?;
    var line := t.line.value;
    SentDetermines(s, r, bytes, Encode(line));
    RoundTrip(line);
  }

  /** A connected service sends the tracking line every time the rate gate
      opens, even with no face in view. */
  lemma ConnectedFrameSends(s: Service, lastCommand: int, faces: seq<Tracking.Rect>, now: int)
    requires Valid(s) && s.state == Connected
    requires now - lastCommand > Tracking.MinInterval
    ensures exists bytes :: SentExactly(s, OnFrame(Some(s), lastCommand, faces, now, true).service.value, bytes)
  {
    var line := Tracking.Tick(faces, now, lastCommand).line.value;
    assert SentExactly(s, OnFrame(Some(s), lastCommand, faces, now, true).service.value, Encode(line));
  }

  /** The voice-result handler: the keyword's message, if any, is sent. */
  function OnVoiceResult(service: Option<Service>, matches: seq<string>, streamOk: bool): (r: Option<Service>)
    ensures Voice.Message(matches).None? ==> r == service
    ensures service.None? ==> r.None?
    ensures service.Some? ==> r.Some? && (r.value == service.value || SentExactly(service.value, r.value, Encode(Voice.Message(matches).value)))
    ensures service.Some? && r.Some? && Voice.Message(matches).Some? ==>
      (SentExactly(service.value, r.value, Encode(Voice.Message(matches).value)) <==>
        service.value.state == Connected && service.value.session.Some? && streamOk)
  {
    match Voice.Message(matches)
    case None => service
    case Some(m) =>
      assert |m| > 0 by { Voice.MessageNonEmpty(matches); }
      SendMessage(service, m, streamOk)
  }

  /** Saying a keyword to a connected service with a working stream sends
      that keyword's message, and nothing else changes. */
  lemma ConnectedVoiceSends(s: Service, matches: seq<string>, k: nat)
    requires Valid(s) && s.state == Connected
    requires |matches| > 0 && k < |Voice.Keywords| && Text.Contains(Text.ToLower(matches[0]), Voice.Keywords[k].0)
    requires forall j :: 0 <= j < k ==> !Text.Contains(Text.ToLower(matches[0]), Voice.Keywords[j].0)
    ensures OnVoiceResult(Some(s), matches, true) == Some(s.(events := s.events + [Wrote(Encode(Voice.Keywords[k].1))]))
  {
  }
}

=== FILE: commands.dfy ===
/**
 * The tracking commands sent to the actuator and their wire form: one
 * comma-separated line, terminated by a single newline.
 */
module Commands {
  import opened Wrappers
  import opened Decimal
  import opened Text

  datatype Command =
    | Search
    | Left(h: int)
    | Right(h: int)
    | Up(v: int)
    | Down(v: int)
    | Forward(width: int)
    | Back(width: int)
    | Okay(width: int, h: int)

  /** The command word that opens each line. */
  function Name(c: Command): (name: string)
    ensures ',' !in name && '\n' !in name && |name| > 0
  {
    match c
    case Search => "search"
    case Left(_) => "left"
    case Right(_) => "right"
    case Up(_) => "up"
    case Down(_) => "down"
    case Forward(_) => "forward"
    case Back(_) => "back"
    case Okay(_, _) => "okay"
  }

  /** The integer carried by a single-argument command. */
  function Argument(c: Command): int
    requires !c.Search? && !c.Okay?
  {
    match c
    case Left(h) => h
    case Right(h) => h
    case Up(v) => v
    case Down(v) => v
    case Forward(w) => w
    case Back(w) => w
  }

  /** The line without its terminator, as the controller concatenates it. */
  function Body(c: Command): string {
    match c
    case Search => "search"
    case Okay(w, h) => "okay," + IntToString(w) + "," + IntToString(h)
    case _ => Name(c) + "," + IntToString(Argument(c))
  }

  /** The line as the controller hands it to the link. */
  function Format(c: Command): (line: string)
    ensures |line| > 0 && line[|line| - 1] == '\n'
    ensures '\n' !in line[..|line| - 1]
    ensures |Name(c)| < |line| && line[..|Name(c)|] == Name(c)
  {
    var body := Body(c);
    assert (body + "\n")[..|body|] == body;
    body + "\n"
  }

  /** The actuator's reading of a line: a command word, then its integer
      arguments. Any other line is None. */
  function Parse(line: string): Option<Command> {
    if |line| == 0 || line[|line| - 1] != '\n' then None
    else ParseBody(line[..|line| - 1])
  }

  /** A line without its terminator. */
  function ParseBody(body: string): Option<Command> {
    var (name, args, hasArgs) := SplitFirst(body, ',');
    if !hasArgs then (if name == "search" then Some(Search) else None)
    else WithArguments(name, args)
  }

  /** A command word followed by a comma and `args`. */
  function WithArguments(name: string, args: string): Option<Command> {
    if name == "okay" then ParseArguments(args)
    else
      match ParseInt(args)
      case None => None
      case Some(n) => OneArgument(name, n)
  }

  /** The two arguments of `okay`. */
  function ParseArguments(args: string): Option<Command> {
    var (a, b, two) := SplitFirst(args, ',');
    match (ParseInt(a), ParseInt(b))
    case (Some(w), Some(h)) => if two then Some(Okay(w, h)) else None
    case _ => None
  }

  /** The single-argument command a word names, if any. */
  function OneArgument(name: string, n: int): Option<Command> {
    if name == "left" then Some(Left(n))
    else if name == "right" then Some(Right(n))
    else if name == "up" then Some(Up(n))
    else if name == "down" then Some(Down(n))
    else if name == "forward" then Some(Forward(n))
    else if name == "back" then Some(Back(n))
    else None
  }

  lemma ParseFormatBody(c: Command)
    ensures Parse(Format(c)) == ParseBody(Body(c))
  {
    var line := Format(c);
    assert line[..|line| - 1] == Body(c);
  }

  lemma ParseBodyWithArguments(name: string, args: string)
    requires ',' !in name
    ensures ParseBody(name + "," + args) == WithArguments(name, args)
  {
    SplitFirstOfJoin(name, ',', args);
  }

  lemma ParseOneArgument(c: Command)
    requires !c.Search? && !c.Okay?
    ensures Parse(Format(c)) == Some(c)
  {
    var name, n := Name(c), Argument(c);
    ParseFormatBody(c);
    ParseBodyWithArguments(name, IntToString(n));
    IntRoundTrip(n);
    assert OneArgument(name, n) == Some(c);
  }

  lemma ParseArgumentsOf(w: int, h: int)
    ensures ParseArguments(IntToString(w) + "," + IntToString(h)) == Some(Okay(w, h))
  {
    SplitFirstOfJoin(IntToString(w), ',', IntToString(h));
    IntRoundTrip(w);
    IntRoundTrip(h);
  }

  lemma OkayBody(w: int, h: int)
    ensures Body(Okay(w, h)) == "okay" + "," + (IntToString(w) + "," + IntToString(h))
  {
  }

  lemma ParseOkayBody(w: int, h: int)
    ensures ParseBody("okay" + "," + (IntToString(w) + "," + IntToString(h))) == Some(Okay(w, h))
  {
    ParseBodyWithArguments("okay", IntToString(w) + "," + IntToString(h));
    ParseArgumentsOf(w, h);
  }

  /** Every command line reads back as the command it was built from. */
  lemma ParseFormat(c: Command)
    ensures Parse(Format(c)) == Some(c)
  {
    match c
    case Search =>
      ParseFormatBody(c);
      SplitFirstWithout("search", ',');
    case Okay(w, h) =>
      ParseFormatBody(c);
      OkayBody(w, h);
      ParseOkayBody(w, h);
    case _ =>
      ParseOneArgument(c);
  }

  /** Distinct commands go out as distinct lines. */
  lemma FormatInjective(c: Command, d: Command)
    requires Format(c) == Format(d)
    ensures c == d
  {
    ParseFormat(c);
    ParseFormat(d);
  }
}

=== FILE: decimal.dfy ===
/**
 * Decimal text of integers, as Java's string concatenation `"left," + n`
 * renders an `int` (Integer.toString): an optional minus sign followed by
 * the digits of the magnitude, without leading zeros. The parser is the
 * receiving side's reading of the same text and serves as the inverse.
 */
module Decimal {
  import opened Wrappers

  predicate IsDigit(c: char) {
    '0' <= c <= '9'
  }

  predicate AllDigits(s: string) {
    forall i :: 0 <= i < |s| ==> IsDigit(s[i])
  }

  function DigitChar(d: nat): (c: char)
    requires d < 10
    ensures IsDigit(c)
  {
    ('0' as int + d) as char
  }

  function DigitValue(c: char): (d: nat)
    requires IsDigit(c)
    ensures d < 10
  {
    c as int - '0' as int
  }

  /** Digits of a natural number, most significant first. */
  function NatToString(n: nat): (s: string)
    ensures 1 <= |s|
    ensures AllDigits(s)
    ensures n > 0 ==> s[0] != '0'
    decreases n
  {
    if n < 10 then [DigitChar(n)] else NatToString(n / 10) + [DigitChar(n % 10)]
  }

  /** Digits without a superfluous leading zero: "0" itself, or a
      non-empty digit string that does not start with '0'. */
  predicate Unpadded(d: string) {
    && 0 < |d| && AllDigits(d)
    && (|d| > 1 ==> d[0] != '0')
  }

  /** The text `Integer.toString` can produce: unpadded digits, or a minus
      sign before unpadded digits of a non-zero magnitude (never "-0"). */
  predicate Canonical(s: string) {
    if 0 < |s| && s[0] == '-' then Unpadded(s[1..]) && s[1] != '0'
    else Unpadded(s)
  }

  /** Java's decimal rendering of an integer. */
  function IntToString(n: int): (s: string)
    ensures 1 <= |s|
    ensures n < 0 <==> s[0] == '-'
    ensures ',' !in s && '\n' !in s
  {
    if n < 0 then "-" + NatToString(-n) else NatToString(n)
  }

  /** The rendering is canonical: no padding zero, and no "-0". */
  lemma IntToStringCanonical(n: int)
    ensures Canonical(IntToString(n))
  {
  }

  /** The value of a string of decimal digits. */
  function DigitsValue(s: string): nat
    requires AllDigits(s)
  {
    if |s| == 0 then 0 else DigitsValue(s[..|s| - 1]) * 10 + DigitValue(s[|s| - 1])
  }

  /** Reads an optionally negative decimal integer; anything else is None. */
  function ParseInt(s: string): Option<int> {
    if 1 < |s| && s[0] == '-' && AllDigits(s[1..]) then var v: int := DigitsValue(s[1..]); Some(-v)
    else if 0 < |s| && AllDigits(s) then Some(DigitsValue(s))
    else None
  }

  lemma {:induction false} NatRoundTrip(n: nat)
    ensures DigitsValue(NatToString(n)) == n
    decreases n
  {
    if n >= 10 {
      var s := NatToString(n);
      assert s[..|s| - 1] == NatToString(n / 10);
      NatRoundTrip(n / 10);
    }
  }

  /** Reading back the rendered text gives the integer that was rendered. */
  lemma IntRoundTrip(n: int)
    ensures ParseInt(IntToString(n)) == Some(n)
  {
    var s := IntToString(n);
    if n < 0 {
      assert s[1..] == NatToString(-n);
      NatRoundTrip(-n);
    } else {
      NatRoundTrip(n);
    }
  }

  lemma {:induction false} DigitsPositive(d: string)
    requires 0 < |d| && AllDigits(d) && d[0] != '0'
    ensures DigitsValue(d) > 0
    decreases |d|
  {
    if |d| > 1 {
      DigitsPositive(d[..|d| - 1]);
    }
  }

  /** Unpadded digits are the rendering of their own value. */
  lemma {:induction false} UnpaddedRendering(d: string)
    requires Unpadded(d)
    ensures NatToString(DigitsValue(d)) == d
    decreases |d|
  {
    var n := DigitsValue(d);
    var c := d[|d| - 1];
    if |d| == 1 {
      assert DigitChar(DigitValue(c)) == c;
    } else {
      var init := d[..|d| - 1];
      assert init[0] == d[0];
      DigitsPositive(init);
      UnpaddedRendering(init);
      assert n / 10 == DigitsValue(init) && n % 10 == DigitValue(c);
      assert DigitChar(DigitValue(c)) == c;
      assert d == init + [c];
    }
  }

  /** Canonical text is the only text of its value: whatever canonical
      string reads as `n` is exactly `Integer.toString(n)`. */
  lemma CanonicalUnique(s: string, n: int)
    requires Canonical(s) && ParseInt(s) == Some(n)
    ensures s == IntToString(n)
  {
    if s[0] == '-' {
      var d := s[1..];
      DigitsPositive(d);
      UnpaddedRendering(d);
      assert s == "-" + d;
    } else {
      UnpaddedRendering(s);
    }
  }
}

=== FILE: java_int.dfy ===
/**
 * Java `int` arithmetic on top of Dafny's unbounded integers: 32-bit
 * two's-complement wrap-around and division that truncates toward zero.
 */
module JavaInt {

  const MinInt32: int := -0x8000_0000
  const MaxInt32: int := 0x7FFF_FFFF
  const Modulus32: int := 0x1_0000_0000

  /** A value a Java `int` can hold. */
  type int32 = x: int | MinInt32 <= x <= MaxInt32

  function Abs(x: int): nat {
    if x < 0 then -x else x
  }

  /** The `int` a Java expression yields for the mathematical value `x`:
      reduced modulo 2^32 into the signed range. */
  function Wrap32(x: int): (r: int32)
    ensures MinInt32 <= x <= MaxInt32 ==> r == x
  {
    var m := x % Modulus32;
    if m <= MaxInt32 then m else m - Modulus32
  }

  /** Wrapping changes a value by a multiple of 2^32 only. */
  lemma Wrap32Congruent(x: int)
    ensures (Wrap32(x) - x) % Modulus32 == 0
  {
  }

  /** Java `-a` on an `int`. */
  function Neg(a: int32): int32 {
    Wrap32(-(a as int))
  }

  /** Java `a + b` on `int`s. */
  function Add(a: int32, b: int32): int32 {
    Wrap32(a as int + b as int)
  }

  /** Java `a - b` on `int`s. */
  function Sub(a: int32, b: int32): int32 {
    Wrap32(a as int - b as int)
  }

  /** Java `a / b` on integers: the quotient truncated toward zero.
      (Dafny's own `/` is Euclidean and rounds negative quotients down.) */
  function JavaDiv(a: int, b: int): (q: int)
    requires b != 0
    ensures Abs(q) * Abs(b) <= Abs(a) < (Abs(q) + 1) * Abs(b)
    ensures q == 0 || ((q < 0) <==> ((a < 0) != (b < 0)))
  {
    var m := Abs(a) / Abs(b);
    EuclidBounds(Abs(a), Abs(b));
    if (a < 0) != (b < 0) then -m else m
  }

  /** The quotient of naturals brackets the numerator between two
      consecutive multiples of the divisor. */
  lemma EuclidBounds(x: nat, y: nat)
    requires y > 0
    ensures (x / y) * y <= x < (x / y + 1) * y
  {
    var q, r := x / y, x % y;
    assert x == q * y + r;
    assert (q + 1) * y == q * y + y;
  }

  /** Halving as Java does it: the Euclidean quotient for non-negative
      numerators, one more than it for odd negative ones. */
  lemma HalfTruncates(a: int)
    ensures a >= 0 ==> JavaDiv(a, 2) == a / 2
    ensures a < 0 && a % 2 == 1 ==> JavaDiv(a, 2) == a / 2 + 1
    ensures a < 0 && a % 2 == 0 ==> JavaDiv(a, 2) == a / 2
  {
  }

  /** The example where the two divisions part ways at a band edge. */
  lemma MinusSixHundredOneHalved()
    ensures JavaDiv(-601, 2) == -300
    ensures -601 / 2 == -301
  {
  }
}

=== FILE: link.dfy ===
/**
 * The Bluetooth connection service: one state value, at most one connect
 * attempt (a connect thread with its socket) and at most one session (a
 * communication thread on a connected socket). Every synchronized method
 * is one transition of an immutable record; the messages the service posts
 * to the activity's handler are appended to an event log. Threads and
 * sockets are handles: connect thread number k owns socket k and was
 * started for device `threads[k]`; closing a socket records its number in
 * `closed`.
 */
module Link {
  import opened Wrappers
  import opened Utf8

  /** STATE_NONE, STATE_LISTEN (declared, never entered), STATE_CONNECTING,
      STATE_CONNECTED. */
  datatype ConnState = Idle | Listen | Connecting | Connected

  const NoneCode: int := 0
  const ListenCode: int := 1
  const ConnectingCode: int := 2
  const ConnectedCode: int := 3

  /** The integer constant the service uses for each state, posted as the
      state-change message's argument. A new service's state is 0. */
  function Code(st: ConnState): (n: int)
    ensures 0 <= n <= 3
    ensures n == 0 <==> st == Idle
  {
    match st
    case Idle => NoneCode
    case Listen => ListenCode
    case Connecting => ConnectingCode
    case Connected => ConnectedCode
  }

  /** Distinct states are posted as distinct codes. */
  lemma CodeInjective(a: ConnState, b: ConnState)
    requires Code(a) == Code(b)
    ensures a == b
  {
  }

  /** A remote device; `getName()` may return null (None). */
  datatype Device = Device(address: string, name: Option<string>)

  /** A running connect thread, identified by its socket. */
  datatype Attempt = Attempt(socket: nat, device: Device)

  /** A running communication thread on a connected socket. */
  datatype Session = Session(socket: nat)

  /** Messages posted to the activity's handler. */
  datatype Event =
    | StateChange(state: ConnState)
    | DeviceName(name: Option<string>)
    | Toast(text: string)
    | Wrote(bytes: seq<byte>)
    | Read(line: string)

  datatype Service = Service(
    state: ConnState,
    attempt: Option<Attempt>,
    session: Option<Session>,
    closed: set<nat>,
    threads: seq<Device>,
    events: seq<Event>)

  const ConnectFailedText: string := "Unable to connect device"
  const ConnectionLostText: string := "Device connection was lost"

  /** The shape every reachable service has: never listening, never an
      attempt and a session together, a session exactly when connected, and
      nothing running when idle. */
  predicate Valid(s: Service) {
    && s.state != Listen
    && !(s.attempt.Some? && s.session.Some?)
    && (s.state == Connected <==> s.session.Some?)
    && (s.state == Idle ==> s.attempt.None? && s.session.None?)
    && (s.attempt.Some? ==> Started(s, s.attempt.value))
    && (s.session.Some? ==> s.session.value.socket < |s.threads|)
    && (forall k :: k in s.closed ==> k < |s.threads|)
  }

  /** `a` is a connect thread this service started. */
  predicate Started(s: Service, a: Attempt) {
    a.socket < |s.threads| && s.threads[a.socket] == a.device
  }

  /** A freshly constructed service. */
  function Init(): (s: Service)
    ensures Valid(s) && s.state == Idle && s.events == []
  {
    Service(Idle, None, None, {}, [], [])
  }

  /** setState: the new state, announced to the handler. */
  function SetState(s: Service, st: ConnState): (r: Service)
    ensures r.state == st && r.events == s.events + [StateChange(st)]
    ensures r.attempt == s.attempt && r.session == s.session
    ensures r.closed == s.closed && r.threads == s.threads
  {
    s.(state := st, events := s.events + [StateChange(st)])
  }

  /** Sockets a reset closes. */
  function Running(s: Service): set<nat> {
    (if s.attempt.Some? then {s.attempt.value.socket} else {})
      + (if s.session.Some? then {s.session.value.socket} else {})
  }

  /** reset: cancels the connect thread and the communication thread
      (closing their sockets) and announces the idle state, whether or not
      anything was running. */
  function Reset(s: Service): (r: Service)
    ensures r.state == Idle && r.attempt.None? && r.session.None?
    ensures r.events == s.events + [StateChange(Idle)]
    ensures r.closed == s.closed + Running(s)
    ensures r.threads == s.threads
    ensures Valid(s) ==> Valid(r)
  {
    SetState(s.(attempt := None, session := None, closed := s.closed + Running(s)), Idle)
  }

  /** startConnectThread: resets, then starts a connect thread on a new
      socket for `device` and announces connecting. */
  function StartConnect(s: Service, device: Device): (r: Service)
    ensures r.state == Connecting && r.session.None?
    ensures r.attempt == Some(Attempt(|s.threads|, device))
    ensures r.threads == s.threads + [device]
    ensures r.closed == s.closed + Running(s)
    ensures r.events == s.events + [StateChange(Idle), StateChange(Connecting)]
    ensures Valid(s) ==> Valid(r) && |s.threads| !in r.closed
  {
    var idle := Reset(s);
    SetState(idle.(attempt := Some(Attempt(|s.threads|, device)), threads := s.threads + [device]), Connecting)
  }

  /** The connect thread's success path, first half: it forgets the current
      connect thread, whichever it is, without closing it. */
  function ClearAttempt(s: Service): (r: Service)
    ensures r.attempt.None?
    ensures r.state == s.state && r.session == s.session && r.events == s.events && r.closed == s.closed
    ensures r.threads == s.threads
    ensures Valid(s) ==> Valid(r)
  {
    s.(attempt := None)
  }

  /** onConnected: resets (cancelling whatever attempt and session are
      current), starts a communication thread on `socket`, reports the
      device name, and announces connected. */
  function OnConnected(s: Service, socket: nat, device: Device): (r: Service)
    ensures r.state == Connected && r.attempt.None? && r.session == Some(Session(socket))
    ensures r.events == s.events + [StateChange(Idle), DeviceName(device.name), StateChange(Connected)]
    ensures r.closed == s.closed + Running(s) && r.threads == s.threads
    ensures Valid(s) && socket < |s.threads| ==> Valid(r)
  {
    var idle := Reset(s);
    var named := idle.(session := Some(Session(socket)), events := idle.events + [DeviceName(device.name)]);
    SetState(named, Connected)
  }

  /** The whole success path of a connect thread as written: forget the
      current attempt, then onConnected with this thread's socket. Nothing
      checks that `a` is still the current attempt, and the forgotten
      attempt is not cancelled: only the previous session's socket is
      closed, so the current attempt's socket stays open, untracked. */
  function ConnectSucceeded(s: Service, a: Attempt): (r: Service)
    ensures r.state == Connected && r.attempt.None? && r.session == Some(Session(a.socket))
    ensures r.events == s.events + [StateChange(Idle), DeviceName(a.device.name), StateChange(Connected)]
    ensures s.session.Some? ==> s.session.value.socket in r.closed
    ensures r.closed == s.closed + (if s.session.Some? then {s.session.value.socket} else {})
    ensures r.threads == s.threads
  {
    OnConnected(ClearAttempt(s), a.socket, a.device)
  }

  /** The connect thread's failure path: it closes its own socket, then
      connectionFailed posts a toast and resets. */
  function ConnectFailed(s: Service, a: Attempt): (r: Service)
    ensures r.state == Idle && r.attempt.None? && r.session.None?
    ensures r.events == s.events + [Toast(ConnectFailedText), StateChange(Idle)]
    ensures a.socket in r.closed && Running(s) <= r.closed
    ensures r.closed == s.closed + {a.socket} + Running(s) && r.threads == s.threads
  {
    Reset(s.(closed := s.closed + {a.socket}, events := s.events + [Toast(ConnectFailedText)]))
  }

  /** connectionLost, after a failed read: a toast, then a reset. */
  function ConnectionLost(s: Service): (r: Service)
    ensures r.state == Idle && r.attempt.None? && r.session.None?
    ensures r.events == s.events + [Toast(ConnectionLostText), StateChange(Idle)]
    ensures Running(s) <= r.closed
    ensures r.closed == s.closed + Running(s) && r.threads == s.threads
  {
    Reset(s.(events := s.events + [Toast(ConnectionLostText)]))
  }

  /** A line read by the communication thread, posted to the handler. */
  function LineRead(s: Service, line: string): (r: Service)
    ensures r.events == s.events + [Read(line)]
    ensures r.(events := s.events) == s
  {
    s.(events := s.events + [Read(line)])
  }

  /** write: does nothing unless connected; otherwise hands the bytes to the
      current communication thread, whose stream write either succeeds
      (`streamOk`, posted to the handler) or fails, which is only logged.
      A connected service without a session cannot occur (Valid); the
      source would throw there, and the caller swallows the exception. */
  function Write(s: Service, bytes: seq<byte>, streamOk: bool): (r: Service)
    ensures r.(events := s.events) == s
    ensures r.events == s.events || r.events == s.events + [Wrote(bytes)]
    ensures r.events == s.events + [Wrote(bytes)] <==> s.state == Connected && s.session.Some? && streamOk
  {
    if s.state != Connected then s
    else match s.session
      case None => s
      case Some(_) => if streamOk then s.(events := s.events + [Wrote(bytes)]) else s
  }

  /** Under the invariant, a connected service writes exactly when the
      stream does. */
  lemma WriteWhenConnected(s: Service, bytes: seq<byte>, streamOk: bool)
    requires Valid(s)
    ensures Write(s, bytes, streamOk).events == s.events + (if s.state == Connected && streamOk then [Wrote(bytes)] else [])
  {
  }

  /** A reset of an idle service changes nothing but still announces the
      idle state once more: idempotent in state, not in events. */
  lemma ResetTwice(s: Service)
    ensures Reset(Reset(s)).(events := Reset(s).events) == Reset(s)
    ensures Reset(Reset(s)).events == s.events + [StateChange(Idle), StateChange(Idle)]
  {
  }
}

=== FILE: link_guarded.dfy ===
/**
 * The link as a superseded thread would be expected to behave: a
 * completion from a connect thread that is no longer the current attempt,
 * or from a communication thread that is no longer the current session, is
 * discarded. The activity's own calls are unchanged. BluetoothService has
 * no such check (the as-written service is `LinkRuns.Step`); this variant
 * states what the check would guarantee, next to the lemmas that show the
 * code as written falls short of it.
 */
module GuardedLink {
  import opened Wrappers
  import opened Link
  import opened LinkRuns

  /** Connect thread `k` is the service's current attempt. */
  predicate CurrentAttempt(s: Service, k: nat) {
    k < |s.threads| && s.attempt == Some(Attempt(k, s.threads[k]))
  }

  /** The communication thread on socket `k` is the service's session. */
  predicate CurrentSession(s: Service, k: nat) {
    s.session == Some(Session(k))
  }

  /** No socket is both running and closed, and every socket the service
      opened is either still running or closed: nothing is used after it
      was closed and nothing leaks. */
  predicate Tidy(s: Service) {
    && Valid(s)
    && (forall k :: k in Running(s) ==> k !in s.closed)
    && (forall k :: 0 <= k < |s.threads| && k !in Running(s) ==> k in s.closed)
  }

  /** One input with the currency check. The check and the clearing of the
      attempt happen in the same step as onConnected, so the separate first
      half (`AttemptCleared`) changes nothing. */
  function GuardedStep(s: Service, i: Input): (r: Service)
    ensures Valid(s) ==> Valid(r)
    ensures Tidy(s) ==> Tidy(r)
  {
    match i
    case AttemptCleared => s
    case ThreadConnected(k) =>
      if CurrentAttempt(s, k) then ConnectSucceeded(s, s.attempt.value) else s
    case Succeeded(k) =>
      if CurrentAttempt(s, k) then ConnectSucceeded(s, s.attempt.value) else s
    case Failed(k) =>
      if CurrentAttempt(s, k) then ConnectFailed(s, s.attempt.value) else s
    case Received(k, line) =>
      if CurrentSession(s, k) then LineRead(s, line) else s
    case Lost(k) =>
      if CurrentSession(s, k) then ConnectionLost(s) else s
    case _ => Step(s, i)
  }

  function GuardedRun(s: Service, inputs: seq<Input>): Service
    decreases |inputs|
  {
    if |inputs| == 0 then s else GuardedRun(GuardedStep(s, inputs[0]), inputs[1..])
  }

  /** A completion from a thread that is not current changes nothing: no
      state change, no device name, no toast, no line, nothing closed. */
  lemma StaleCompletionDiscarded(s: Service, k: nat, line: string)
    requires !CurrentAttempt(s, k) && !CurrentSession(s, k)
    ensures GuardedStep(s, Succeeded(k)) == s
    ensures GuardedStep(s, ThreadConnected(k)) == s
    ensures GuardedStep(s, Failed(k)) == s
    ensures GuardedStep(s, Received(k, line)) == s
    ensures GuardedStep(s, Lost(k)) == s
  {
  }

  /** With the check, only the current attempt ever connects: a step that
      newly reaches CONNECTED is the success of the current connect thread,
      and the session runs on its socket. */
  lemma OnlyCurrentConnects(s: Service, i: Input)
    requires Valid(s)
    requires GuardedStep(s, i).state == Connected && s.state != Connected
    ensures (i.Succeeded? || i.ThreadConnected?) && CurrentAttempt(s, i.socket)
    ensures GuardedStep(s, i).session == Some(Session(i.socket))
  {
  }

  /** With the check, a device name is only ever announced for the current
      connect thread's device. */
  lemma OnlyCurrentNamed(s: Service, i: Input, n: Option<string>)
    requires Valid(s)
    requires DeviceName(n) in GuardedStep(s, i).events[|s.events|..]
    ensures (i.Succeeded? || i.ThreadConnected?) && CurrentAttempt(s, i.socket)
    ensures n == s.threads[i.socket].name
  {
  }

  /** From construction on, every guarded run stays tidy: the session never
      runs on a closed socket and no connect thread is left running
      untracked. */
  lemma {:induction false} GuardedRunTidy(s: Service, inputs: seq<Input>)
    requires Tidy(s)
    ensures Tidy(GuardedRun(s, inputs))
    ensures var r := GuardedRun(s, inputs); r.session.Some? ==> r.session.value.socket !in r.closed
    decreases |inputs|
  {
    if |inputs| > 0 {
      GuardedRunTidy(GuardedStep(s, inputs[0]), inputs[1..]);
    }
  }

  /** From construction on, whatever the interleaving, the checked service
      is tidy: no session on a closed socket, no connect thread left running
      untracked. */
  lemma GuardedFromInit(inputs: seq<Input>)
    ensures Tidy(GuardedRun(Init(), inputs))
    ensures var r := GuardedRun(Init(), inputs); r.session.Some? ==> r.session.value.socket !in r.closed
  {
    GuardedRunTidy(Init(), inputs);
  }

  /** The as-written service is not tidy after a superseded success: its
      session runs on a socket that was already closed. */
  lemma SupersededSuccessUntidy(a: Device, b: Device)
    ensures !Tidy(Step(Step(Step(Init(), Connect(a)), Connect(b)), Succeeded(0)))
  {
    SupersededSuccessConnects(a, b);
  }

  /** With the check, the superseded thread's success is discarded and the
      newer attempt carries on. */
  lemma GuardedSupersededSuccess(a: Device, b: Device)
    ensures var s2 := GuardedStep(GuardedStep(Init(), Connect(a)), Connect(b));
      var s := GuardedStep(s2, Succeeded(0));
      && s == s2
      && s.state == Connecting && s.attempt == Some(Attempt(1, b))
  {
  }

  /** With the check, the superseded thread's failure leaves the newer
      attempt alone. */
  lemma GuardedSupersededFailure(a: Device, b: Device)
    ensures var s2 := GuardedStep(GuardedStep(Init(), Connect(a)), Connect(b));
      var s := GuardedStep(s2, Failed(0));
      && s == s2
      && s.state == Connecting && s.attempt == Some(Attempt(1, b))
  {
  }

  /** With the check, the old communication thread's failed read after a
      reconnect leaves the newer attempt alone. */
  lemma GuardedStaleLoss(a: Device, b: Device)
    ensures var s3 := GuardedStep(GuardedStep(GuardedStep(Init(), Connect(a)), Succeeded(0)), Connect(b));
      var s := GuardedStep(s3, Lost(0));
      && s == s3
      && s.state == Connecting && s.attempt == Some(Attempt(1, b)) && 0 in s.closed
  {
  }

  /** With the check, a line the old communication thread read after a
      reconnect is not posted. */
  lemma GuardedStaleLine(a: Device, b: Device, line: string)
    ensures var s3 := GuardedStep(GuardedStep(GuardedStep(Init(), Connect(a)), Succeeded(0)), Connect(b));
      var s := GuardedStep(s3, Received(0, line));
      && s == s3
      && s.state == Connecting && s.attempt == Some(Attempt(1, b))
  {
  }

  /** With the check, the current session's lines are posted as read. */
  lemma CurrentLinePosted(s: Service, k: nat, line: string)
    requires CurrentSession(s, k)
    ensures GuardedStep(s, Received(k, line)).events == s.events + [Read(line)]
    ensures GuardedStep(s, Received(k, line)).(events := s.events) == s
  {
  }
}

=== FILE: link_runs.dfy ===
/**
 * The service driven by a sequence of inputs: calls from the activity and
 * completions reported by the service's own threads, each applied
 * atomically in the order it takes the service's lock.
 */
module LinkRuns {
  import opened Wrappers
  import opened Utf8
  import opened Link

  datatype Input =
    /** startConnectThread(device) */
    | Connect(device: Device)
    /** reset(), from the activity */
    | ResetCall
    /** a connect thread that connected clears mConnectThread */
    | AttemptCleared
    /** connect thread `socket` then calls onConnected */
    | ThreadConnected(socket: nat)
    /** both halves of connect thread `socket`'s success, back to back */
    | Succeeded(socket: nat)
    /** connect thread `socket`'s connect() threw */
    | Failed(socket: nat)
    /** the communication thread on `socket` read a line */
    | Received(socket: nat, line: string)
    /** the read of the communication thread on `socket` threw */
    | Lost(socket: nat)
    /** write(bytes); `streamOk` is whether the stream write succeeds */
    | WriteCall(bytes: seq<byte>, streamOk: bool)

  /** No event in `evs` announces the listening state. */
  predicate NeverListens(evs: seq<Event>) {
    forall k :: 0 <= k < |evs| ==> evs[k] != StateChange(Listen)
  }

  /** One input. Completions name their thread by its socket; a number the
      service never handed out names no thread and changes nothing. As in
      the source, nothing checks that the thread is still the current one. */
  function Step(s: Service, i: Input): (r: Service)
    ensures Valid(s) ==> Valid(r)
  {
    match i
    case Connect(d) => StartConnect(s, d)
    case ResetCall => Reset(s)
    case AttemptCleared => ClearAttempt(s)
    case ThreadConnected(k) =>
      if k < |s.threads| then OnConnected(s, k, s.threads[k]) else s
    case Succeeded(k) =>
      if k < |s.threads| then ConnectSucceeded(s, Attempt(k, s.threads[k])) else s
    case Failed(k) =>
      if k < |s.threads| then ConnectFailed(s, Attempt(k, s.threads[k])) else s
    case Received(k, line) => if k < |s.threads| then LineRead(s, line) else s
    case Lost(k) => if k < |s.threads| then ConnectionLost(s) else s
    case WriteCall(bytes, ok) => Write(s, bytes, ok)
  }

  /** Each input only appends to the log, and never a LISTEN announcement. */
  lemma StepPosts(s: Service, i: Input)
    ensures exists posted: seq<Event> :: Step(s, i).events == s.events + posted && NeverListens(posted)
  {
    var r := Step(s, i);
    var posted: seq<Event> := match i
      case Connect(_) => [StateChange(Idle), StateChange(Connecting)]
      case ResetCall => [StateChange(Idle)]
      case AttemptCleared => []
      case ThreadConnected(k) =>
        if k < |s.threads| then [StateChange(Idle), DeviceName(s.threads[k].name), StateChange(Connected)] else []
      case Succeeded(k) =>
        if k < |s.threads| then [StateChange(Idle), DeviceName(s.threads[k].name), StateChange(Connected)] else []
      case Failed(k) =>
        if k < |s.threads| then [Toast(ConnectFailedText), StateChange(Idle)] else []
      case Received(k, line) => if k < |s.threads| then [Read(line)] else []
      case Lost(k) => if k < |s.threads| then [Toast(ConnectionLostText), StateChange(Idle)] else []
      case WriteCall(bytes, ok) => r.events[|s.events|..];
    if i.WriteCall? {
      assert r.events == s.events || r.events == s.events + [Wrote(i.bytes)];
    }
    assert r.events == s.events + posted && NeverListens(posted);
  }

  function Run(s: Service, inputs: seq<Input>): Service
    decreases |inputs|
  {
    if |inputs| == 0 then s else Run(Step(s, inputs[0]), inputs[1..])
  }

  /** Whatever the interleaving, the service keeps its shape, its log only
      grows, and it never announces the listening state. */
  lemma {:induction false} RunKeepsShape(s: Service, inputs: seq<Input>)
    requires Valid(s) && NeverListens(s.events)
    ensures Valid(Run(s, inputs))
    ensures s.events <= Run(s, inputs).events
    ensures NeverListens(Run(s, inputs).events)
    decreases |inputs|
  {
    if |inputs| > 0 {
      var t := Step(s, inputs[0]);
      StepPosts(s, inputs[0]);
      RunKeepsShape(t, inputs[1..]);
    }
  }

  /** From construction on: never listening, and at most one attempt or
      session at any time. */
  lemma FromInit(inputs: seq<Input>)
    ensures var s := Run(Init(), inputs);
      && NeverListens(s.events)
      && !(s.attempt.Some? && s.session.Some?)
      && (s.state == Connected <==> s.session.Some?)
      && (s.state == Idle ==> s.attempt.None? && s.session.None?)
  {
    RunKeepsShape(Init(), inputs);
  }

  /** No stale-attempt check: connect thread 0, superseded by a connect to
      `b` (which closed socket 0), still completes into a connected session
      on its closed socket, reports `a`'s name, and leaves thread 1 running
      but untracked and unclosed. */
  lemma SupersededSuccessConnects(a: Device, b: Device)
    ensures var s := Step(Step(Step(Init(), Connect(a)), Connect(b)), Succeeded(0));
      && s.state == Connected
      && s.session == Some(Session(0)) && 0 in s.closed
      && s.attempt.None? && 1 !in s.closed
      && |s.events| >= 2 && s.events[|s.events| - 2] == DeviceName(a.name)
  {
    var s1 := Step(Init(), Connect(a));
    var s2 := Step(s1, Connect(b));
    assert s2.attempt == Some(Attempt(1, b)) && 0 in s2.closed && 1 !in s2.closed;
  }

  /** A newer attempt started between a connect thread's two success steps
      is cancelled by that thread's onConnected. */
  lemma LateOnConnectedCancelsNewer(a: Device, b: Device)
    ensures var s := Step(Step(Step(Step(Init(), Connect(a)), AttemptCleared), Connect(b)), ThreadConnected(0));
      && s.state == Connected && s.session == Some(Session(0))
      && 1 in s.closed
  {
    var s1 := Step(Init(), Connect(a));
    var s2 := Step(s1, AttemptCleared);
    var s3 := Step(s2, Connect(b));
    assert s3.attempt == Some(Attempt(1, b));
  }

  /** The superseded thread's connect fails (its socket was closed), and
      connectionFailed resets the newer attempt as well. */
  lemma SupersededFailureResetsNewer(a: Device, b: Device)
    ensures var s := Step(Step(Step(Init(), Connect(a)), Connect(b)), Failed(0));
      && s.state == Idle && s.attempt.None? && 1 in s.closed
  {
    var s1 := Step(Init(), Connect(a));
    var s2 := Step(s1, Connect(b));
    assert s2.attempt == Some(Attempt(1, b));
  }

  /** Reconnecting while connected: the reset inside startConnectThread
      closes the session's socket, the old communication thread's read then
      throws, and its connectionLost resets the newer attempt. */
  lemma StaleLossResetsNewer(a: Device, b: Device)
    ensures var s := Step(Step(Step(Step(Init(), Connect(a)), Succeeded(0)), Connect(b)), Lost(0));
      && s.state == Idle && s.attempt.None? && s.session.None?
      && 0 in s.closed && 1 in s.closed
  {
    var s1 := Step(Init(), Connect(a));
    var s2 := Step(s1, Succeeded(0));
    var s3 := Step(s2, Connect(b));
    assert s3.attempt == Some(Attempt(1, b)) && 0 in s3.closed;
  }

  /** Reconnecting while connected: a line the old communication thread
      read before its socket was closed is still posted, although that
      thread is no longer the session. */
  lemma StaleLinePosted(a: Device, b: Device, line: string)
    ensures var s3 := Step(Step(Step(Init(), Connect(a)), Succeeded(0)), Connect(b));
      var s := Step(s3, Received(0, line));
      && s3.session.None? && 0 in s3.closed
      && s.events == s3.events + [Read(line)]
      && s.state == Connecting && s.attempt == Some(Attempt(1, b))
  {
  }
}

=== FILE: listen.dfy ===
/**
 * The voice-listen trigger: a received line whose first comma-separated
 * field is the proximity marker asks for voice recognition, which starts
 * at most once every five seconds.
 */
module Listen {
  import opened Text

  const ProximityMarker: string := "PROXIMITY"
  const ListenInterval: int := 5000

  /** Whether a received line is the proximity signal. */
  predicate IsProximity(line: string) {
    FirstToken(line) == ProximityMarker
  }

  /** The marker must make up the whole first field: the line is the
      marker alone or the marker followed by a comma. */
  lemma ProximityIff(line: string)
    ensures IsProximity(line) <==>
      line == ProximityMarker || (|line| > |ProximityMarker| && line[..|ProximityMarker| + 1] == ProximityMarker + ",")
  {
    var tok := FirstToken(line);
    var n := |ProximityMarker|;
    if line == ProximityMarker {
      SplitFirstWithout(line, ',');
    } else if |line| > n && line[..n + 1] == ProximityMarker + "," {
      assert line == ProximityMarker + [','] + line[n + 1..];
      SplitFirstOfJoin(ProximityMarker, ',', line[n + 1..]);
    }
  }

  /** Outcome of a listen request: whether recognition starts, and the time
      of the last start afterwards. */
  datatype ListenResult = ListenResult(fired: bool, last: int)

  /** The debounce: recognition starts when at least five seconds have
      passed since the last start, which then becomes `now`. */
  function Request(now: int, last: int): (r: ListenResult)
    ensures r.fired <==> now - last >= ListenInterval
    ensures r.fired ==> r.last == now
    ensures !r.fired ==> r.last == last
  {
    if now - last < ListenInterval then ListenResult(false, last)
    else ListenResult(true, now)
  }

  /** The clock readings at which recognition starts, over a series of
      requests. */
  function Starts(times: seq<int>, last: int): seq<int>
    decreases |times|
  {
    if |times| == 0 then []
    else
      var r := Request(times[0], last);
      (if r.fired then [times[0]] else []) + Starts(times[1..], r.last)
  }

  /** Starts are five seconds apart from the previous start and from each
      other. */
  lemma {:induction false} StartsSpaced(times: seq<int>, last: int)
    ensures forall i :: 0 <= i < |Starts(times, last)| ==> Starts(times, last)[i] - last >= ListenInterval
    ensures forall i :: 0 < i < |Starts(times, last)| ==>
      Starts(times, last)[i] - Starts(times, last)[i - 1] >= ListenInterval
    decreases |times|
  {
    if |times| > 0 {
      var r := Request(times[0], last);
      StartsSpaced(times[1..], r.last);
      var rest := Starts(times[1..], r.last);
      var all := Starts(times, last);
      if r.fired {
        assert all == [times[0]] + rest;
        forall i | 0 <= i < |all| ensures all[i] - last >= ListenInterval {
          if i > 0 { assert all[i] == rest[i - 1]; }
        }
      } else {
        assert all == rest;
      }
    }
  }
}

=== FILE: text.dfy ===
/** The few string operations the controller relies on. */
module Text {

  /** Lower-cases the ASCII letters and leaves every other character alone. */
  function LowerChar(c: char): (d: char)
    ensures 'A' <= c <= 'Z' ==> d as int == c as int + 32
    ensures !('A' <= c <= 'Z') ==> d == c
    ensures !('A' <= d <= 'Z')
  {
    if 'A' <= c <= 'Z' then (c as int + 32) as char else c
  }

  function ToLower(s: string): (t: string)
    ensures |t| == |s|
    ensures forall i :: 0 <= i < |s| ==> t[i] == LowerChar(s[i])
  {
    if |s| == 0 then "" else [LowerChar(s[0])] + ToLower(s[1..])
  }

  /** `t` occurs in `s` starting at index `i`. */
  predicate OccursAt(s: string, t: string, i: int) {
    0 <= i && i + |t| <= |s| && s[i..i + |t|] == t
  }

  /** Java's `s.contains(t)`, scanning left to right. */
  function Contains(s: string, t: string): bool
    decreases |s|
  {
    if |s| < |t| then false
    else if s[..|t|] == t then true
    else if |s| == 0 then false
    else Contains(s[1..], t)
  }

  /** The scan finds `t` exactly when `t` occurs somewhere in `s`. */
  lemma {:induction false} ContainsIffOccurs(s: string, t: string)
    ensures Contains(s, t) <==> exists i :: OccursAt(s, t, i)
    decreases |s|
  {
    if |s| < |t| {
    } else if s[..|t|] == t {
      assert OccursAt(s, t, 0);
    } else if |s| == 0 {
      assert false;
    } else {
      ContainsIffOccurs(s[1..], t);
      if exists i :: OccursAt(s, t, i) {
        var i :| OccursAt(s, t, i);
        assert i != 0;
        assert s[1..][i - 1..i - 1 + |t|] == s[i..i + |t|];
        assert OccursAt(s[1..], t, i - 1);
      }
      if exists j :: OccursAt(s[1..], t, j) {
        var j :| OccursAt(s[1..], t, j);
        assert s[j + 1..j + 1 + |t|] == s[1..][j..j + |t|];
        assert OccursAt(s, t, j + 1);
      }
    }
  }

  /** The text before the first `sep`, and the text after it when there is
      one. */
  function SplitFirst(s: string, sep: char): (r: (string, string, bool))
    ensures sep !in r.0
    ensures r.2 ==> s == r.0 + [sep] + r.1
    ensures !r.2 ==> s == r.0 && r.1 == ""
  {
    if |s| == 0 then ("", "", false)
    else if s[0] == sep then ("", s[1..], true)
    else
      var (h, t, found) := SplitFirst(s[1..], sep);
      ([s[0]] + h, t, found)
  }

  /** The first comma-separated field: what `line.split(",")[0]` yields
      whenever the line has a non-empty field. */
  function FirstToken(line: string): (tok: string)
    ensures ',' !in tok
    ensures |tok| <= |line| && line[..|tok|] == tok
    ensures tok == line || line[|tok|] == ','
  {
    SplitFirst(line, ',').0
  }

  lemma {:induction false} SplitFirstOfJoin(h: string, sep: char, t: string)
    requires sep !in h
    ensures SplitFirst(h + [sep] + t, sep) == (h, t, true)
  {
    if |h| > 0 {
      assert (h + [sep] + t)[1..] == h[1..] + [sep] + t;
      SplitFirstOfJoin(h[1..], sep, t);
      assert [h[0]] + h[1..] == h;
    }
  }

  lemma {:induction false} SplitFirstWithout(h: string, sep: char)
    requires sep !in h
    ensures SplitFirst(h, sep) == (h, "", false)
  {
    if |h| > 0 {
      SplitFirstWithout(h[1..], sep);
      assert [h[0]] + h[1..] == h;
    }
  }
}

=== FILE: tracking.dfy ===
/**
 * The face-tracking controller run on every redraw of the camera view:
 * it folds the detected faces into one envelope, measures where that
 * envelope sits, and, at most once per 150 ms, picks one command by a
 * fixed priority of bands.
 */
module Tracking {
  import opened Wrappers
  import opened JavaInt
  import opened Commands

  /** Bounds of one detected face, camera coordinates: (-1000, -1000) is the
      top-left of the field of view and (1000, 1000) the bottom-right. */
  datatype Rect = Rect(left: int32, top: int32, right: int32, bottom: int32)

  /** Bounds in display orientation. */
  datatype Box = Box(left: int32, top: int32, right: int32, bottom: int32)

  /** Where the envelope sits: horizontal and vertical centre, and width. */
  datatype Position = Position(h: int32, v: int32, width: int32)

  /** One redraw's outcome: the line handed to the link, if any, and the
      time of the last command afterwards. */
  datatype TickResult = TickResult(line: Option<string>, last: int)

  const MinInterval: int := 150
  const HorizontalBand: int := 300
  const VerticalBand: int := 260
  const MinWidth: int := 500
  const MaxWidth: int := 750
  /** The envelope starts as the empty box: display boxes hold inverted
      bounds (a real box has left above right), and the seed's left and top
      are the lowest possible, its right and bottom the highest. */
  const Seed: Box := Box(-1000, -1000, 1000, 1000)

  /** Undoes the 90-degree portrait rotation (a face's top is its display
      left) and the front camera's mirroring (every coordinate negated). */
  function Orient(r: Rect): Box {
    Box(Neg(r.top), Neg(r.left), Neg(r.bottom), Neg(r.right))
  }

  function Max(a: int32, b: int32): int32 {
    if a > b then a else b
  }

  function Min(a: int32, b: int32): int32 {
    if a < b then a else b
  }

  /** `e` encloses `f`: with inverted bounds, `e`'s left and top are at
      least f's and its right and bottom at most f's. */
  predicate Dominates(e: Box, f: Box) {
    f.left <= e.left && f.top <= e.top && e.right <= f.right && e.bottom <= f.bottom
  }

  /** One step of the fold: the larger left and top, the smaller right and
      bottom, of the running envelope and one oriented face. */
  function Combine(e: Box, f: Box): (r: Box)
    ensures Dominates(r, e) && Dominates(r, f)
    ensures forall side :: SideOf(r, side) == SideOf(e, side) || SideOf(r, side) == SideOf(f, side)
  {
    Box(Max(f.left, e.left), Max(f.top, e.top), Min(f.right, e.right), Min(f.bottom, e.bottom))
  }

  /** The faces folded in order, starting from the seed. */
  function Envelope(faces: seq<Rect>): (e: Box)
    ensures Dominates(e, Seed)
    ensures forall i :: 0 <= i < |faces| ==> Dominates(e, Orient(faces[i]))
  {
    if |faces| == 0 then Seed
    else
      var init := faces[..|faces| - 1];
      var e := Envelope(init);
      assert forall i :: 0 <= i < |faces| - 1 ==> faces[i] == init[i];
      Combine(e, Orient(faces[|faces| - 1]))
  }

  datatype Side = LeftSide | TopSide | RightSide | BottomSide

  function SideOf(b: Box, side: Side): int32 {
    match side
    case LeftSide => b.left
    case TopSide => b.top
    case RightSide => b.right
    case BottomSide => b.bottom
  }

  /** The envelope's `side` is the seed's or some face's. */
  predicate Attained(e: Box, faces: seq<Rect>, side: Side) {
    SideOf(e, side) == SideOf(Seed, side)
      || exists i :: 0 <= i < |faces| && SideOf(e, side) == SideOf(Orient(faces[i]), side)
  }

  /** Every side of the envelope comes from the seed or from a face: the
      fold invents no coordinate. */
  lemma {:induction false} EnvelopeAttained(faces: seq<Rect>, side: Side)
    ensures Attained(Envelope(faces), faces, side)
  {
    if |faces| > 0 {
      var n := |faces| - 1;
      var init := faces[..n];
      EnvelopeAttained(init, side);
      var e := Envelope(init);
      var x := SideOf(Envelope(faces), side);
      if x == SideOf(Orient(faces[n]), side) {
        assert SideOf(Envelope(faces), side) == SideOf(Orient(faces[n]), side);
      } else if x != SideOf(Seed, side) {
        assert x == SideOf(e, side);
        var i :| 0 <= i < n && SideOf(e, side) == SideOf(Orient(init[i]), side);
        assert faces[i] == init[i];
      }
    }
  }

  /** Centre and width of an envelope in Java `int` arithmetic. */
  function Measure(e: Box): Position {
    Position(JavaDiv(Add(e.left, e.right), 2), JavaDiv(Add(e.top, e.bottom), 2), Sub(e.left, e.right))
  }

  /** The bands in priority order; the first one that holds decides. */
  datatype Band = NoFace | TooLeft | TooRight | TooHigh | TooLow | TooFar | TooNear | Centered

  function Rank(b: Band): nat {
    match b
    case NoFace => 0
    case TooLeft => 1
    case TooRight => 2
    case TooHigh => 3
    case TooLow => 4
    case TooFar => 5
    case TooNear => 6
    case Centered => 7
  }

  /** Whether a band's own condition holds, regardless of the others. */
  predicate Holds(b: Band, count: nat, p: Position) {
    match b
    case NoFace => count == 0
    case TooLeft => p.h < -HorizontalBand
    case TooRight => p.h > HorizontalBand
    case TooHigh => p.v < -VerticalBand
    case TooLow => p.v > VerticalBand
    case TooFar => p.width < MinWidth
    case TooNear => p.width > MaxWidth
    case Centered => true
  }

  function BandOf(c: Command): Band {
    match c
    case Search => NoFace
    case Left(_) => TooLeft
    case Right(_) => TooRight
    case Up(_) => TooHigh
    case Down(_) => TooLow
    case Forward(_) => TooFar
    case Back(_) => TooNear
    case Okay(_, _) => Centered
  }

  /** The command a band sends, with the measurement it reports. */
  function CommandFor(b: Band, p: Position): Command {
    match b
    case NoFace => Search
    case TooLeft => Left(p.h)
    case TooRight => Right(p.h)
    case TooHigh => Up(p.v)
    case TooLow => Down(p.v)
    case TooFar => Forward(p.width)
    case TooNear => Back(p.width)
    case Centered => Okay(p.width, p.h)
  }

  /** The decision chain: the command of the highest-priority band that
      holds for `count` faces measured at `p`. */
  function Select(count: nat, p: Position): (c: Command)
    ensures Holds(BandOf(c), count, p)
    ensures forall b: Band :: Rank(b) < Rank(BandOf(c)) ==> !Holds(b, count, p)
    ensures c == CommandFor(BandOf(c), p)
  {
    if count == 0 then Search
    else if p.h < -HorizontalBand then Left(p.h)
    else if p.h > HorizontalBand then Right(p.h)
    else if p.v < -VerticalBand then Up(p.v)
    else if p.v > VerticalBand then Down(p.v)
    else if p.width < MinWidth then Forward(p.width)
    else if p.width > MaxWidth then Back(p.width)
    else Okay(p.width, p.h)
  }

  /** One redraw: the rate gate, then the command for the current faces,
      written as its line. `now` is the clock reading. */
  function Tick(faces: seq<Rect>, now: int, last: int): (r: TickResult)
    ensures r.line.Some? <==> now - last > MinInterval
    ensures r.line.None? ==> r.last == last
    ensures r.line.Some? ==> r.last == now
    ensures r.line.Some? ==> Parse(r.line.value) == Some(Select(|faces|, Measure(Envelope(faces))))
    ensures r.line.Some? ==> r.line.value[|r.line.value| - 1] == '\n'
  {
    if now - last > MinInterval then
      var c := Select(|faces|, Measure(Envelope(faces)));
      ParseFormat(c);
      TickResult(Some(Format(c)), now)
    else TickResult(None, last)
  }

  /** When the gate opens, the line is the text the command is written as,
      with Java's rendering of its numbers. */
  lemma TickWritesFormat(faces: seq<Rect>, now: int, last: int)
    requires now - last > MinInterval
    ensures Tick(faces, now, last).line == Some(Format(Select(|faces|, Measure(Envelope(faces)))))
  {
  }

  /** With no face in view the only command is a search, wherever the
      empty envelope happens to sit. */
  lemma NoFaceSearches(now: int, last: int)
    requires now - last > MinInterval
    ensures Tick([], now, last).line == Some("search\n")
  {
    assert Select(0, Measure(Envelope([]))) == Search;
    assert Format(Search) == "search\n";
  }

  /** `okay` is sent exactly when a face is seen and every band is
      satisfied. */
  lemma OkayIff(count: nat, p: Position)
    ensures Select(count, p).Okay? <==>
      && count > 0
      && -HorizontalBand <= p.h <= HorizontalBand
      && -VerticalBand <= p.v <= VerticalBand
      && MinWidth <= p.width <= MaxWidth
  {
    var c := Select(count, p);
    if !c.Okay? {
      assert Holds(BandOf(c), count, p) && BandOf(c) != Centered;
    } else {
      assert !Holds(NoFace, count, p) && !Holds(TooLeft, count, p) && !Holds(TooRight, count, p);
      assert !Holds(TooHigh, count, p) && !Holds(TooLow, count, p);
      assert !Holds(TooFar, count, p) && !Holds(TooNear, count, p);
    }
  }

  /** Horizontal position outranks depth: a face far to the left is
      steered left even when it is also too close. */
  lemma HorizontalBeatsDepth()
    ensures Select(1, Position(-400, 0, 1000)) == Left(-400)
  {
    var c := Select(1, Position(-400, 0, 1000));
    assert Holds(TooLeft, 1, Position(-400, 0, 1000));
    assert Rank(BandOf(c)) <= Rank(TooLeft);
  }

  predicate InView(x: int) {
    -1000 <= x <= 1000
  }

  predicate RectInView(r: Rect) {
    InView(r.left) && InView(r.top) && InView(r.right) && InView(r.bottom)
  }

  /** For one face inside the field of view nothing wraps: the width is the
      face's height in camera coordinates and the centres are the halved,
      negated sums, truncated toward zero, all inside the field of view. */
  lemma SingleFace(r: Rect)
    requires RectInView(r)
    ensures var p := Measure(Envelope([r]));
      && p.width == r.bottom - r.top
      && p.h == JavaDiv(-r.top - r.bottom, 2)
      && p.v == JavaDiv(-r.left - r.right, 2)
      && InView(p.h) && InView(p.v)
  {
    assert [r][..0] == [];
    OrientInView(r);
    assert Envelope([r]) == Orient(r);
    MeasureInView(Orient(r));
  }

  lemma OrientInView(r: Rect)
    requires RectInView(r)
    ensures Orient(r) == Box(-r.top, -r.left, -r.bottom, -r.right)
  {
  }

  lemma MeasureInView(e: Box)
    requires InView(e.left) && InView(e.top) && InView(e.right) && InView(e.bottom)
    ensures var p := Measure(e);
      && p.h == JavaDiv(e.left + e.right, 2) && p.v == JavaDiv(e.top + e.bottom, 2)
      && p.width == e.left - e.right
      && InView(p.h) && InView(p.v)
  {
  }

  lemma SideInView(faces: seq<Rect>, side: Side)
    requires forall i :: 0 <= i < |faces| ==> RectInView(faces[i])
    ensures InView(SideOf(Envelope(faces), side))
  {
    EnvelopeAttained(faces, side);
    var e := Envelope(faces);
    if SideOf(e, side) != SideOf(Seed, side) {
      var i :| 0 <= i < |faces| && SideOf(e, side) == SideOf(Orient(faces[i]), side);
      OrientInView(faces[i]);
    }
  }

  /** The coordinate a face contributes to one side of the envelope, in
      display orientation. */
  function FaceSide(r: Rect, side: Side): int {
    match side
    case LeftSide => -(r.top as int)
    case TopSide => -(r.left as int)
    case RightSide => -(r.bottom as int)
    case BottomSide => -(r.right as int)
  }

  /** Left and top are a maximum over the faces, right and bottom a
      minimum. */
  predicate Maximal(side: Side) {
    side == LeftSide || side == TopSide
  }

  /** For faces in view, each side of the envelope is the extreme of the
      faces' coordinates on that side, attained by one of them. */
  lemma SideIsExtreme(faces: seq<Rect>, side: Side)
    requires 0 < |faces|
    requires forall i :: 0 <= i < |faces| ==> RectInView(faces[i])
    ensures forall i :: 0 <= i < |faces| ==>
      if Maximal(side) then FaceSide(faces[i], side) <= SideOf(Envelope(faces), side)
      else SideOf(Envelope(faces), side) <= FaceSide(faces[i], side)
    ensures exists i :: 0 <= i < |faces| && SideOf(Envelope(faces), side) == FaceSide(faces[i], side)
  {
    forall i | 0 <= i < |faces|
      ensures SideOf(Orient(faces[i]), side) == FaceSide(faces[i], side)
    {
      OrientInView(faces[i]);
    }
    SideBound(faces, side);
    EnvelopeAttained(faces, side);
    var e := Envelope(faces);
    if SideOf(e, side) == SideOf(Seed, side) {
      assert SideOf(e, side) == FaceSide(faces[0], side);
    }
  }

  /** The envelope encloses each face, side by side. */
  lemma SideBound(faces: seq<Rect>, side: Side)
    requires forall i :: 0 <= i < |faces| ==> SideOf(Orient(faces[i]), side) == FaceSide(faces[i], side)
    ensures forall i :: 0 <= i < |faces| ==>
      if Maximal(side) then FaceSide(faces[i], side) <= SideOf(Envelope(faces), side)
      else SideOf(Envelope(faces), side) <= FaceSide(faces[i], side)
  {
    var e := Envelope(faces);
    forall i | 0 <= i < |faces|
      ensures if Maximal(side) then FaceSide(faces[i], side) <= SideOf(e, side)
        else SideOf(e, side) <= FaceSide(faces[i], side)
    {
      assert Dominates(e, Orient(faces[i]));
    }
  }

  /** With several faces in view the envelope is their bounding box: its
      display left is minus the smallest top, its top minus the smallest
      left, its right minus the largest bottom, and its bottom minus the
      largest right. */
  lemma EnvelopeIsBoundingBox(faces: seq<Rect>)
    requires 0 < |faces|
    requires forall i :: 0 <= i < |faces| ==> RectInView(faces[i])
    ensures exists i :: (0 <= i < |faces| && Envelope(faces).left as int == -(faces[i].top as int)
      && forall k :: 0 <= k < |faces| ==> faces[i].top <= faces[k].top)
    ensures exists i :: (0 <= i < |faces| && Envelope(faces).top as int == -(faces[i].left as int)
      && forall k :: 0 <= k < |faces| ==> faces[i].left <= faces[k].left)
    ensures exists j :: (0 <= j < |faces| && Envelope(faces).right as int == -(faces[j].bottom as int)
      && forall k :: 0 <= k < |faces| ==> faces[k].bottom <= faces[j].bottom)
    ensures exists j :: (0 <= j < |faces| && Envelope(faces).bottom as int == -(faces[j].right as int)
      && forall k :: 0 <= k < |faces| ==> faces[k].right <= faces[j].right)
  {
    SideIsExtreme(faces, LeftSide);
    SideIsExtreme(faces, TopSide);
    SideIsExtreme(faces, RightSide);
    SideIsExtreme(faces, BottomSide);
  }

  /** The measured width is the extent of the faces' union, from the
      smallest top to the largest bottom: two faces far apart read as one
      wide face. */
  lemma WidthSpansFaces(faces: seq<Rect>)
    requires 0 < |faces|
    requires forall i :: 0 <= i < |faces| ==> RectInView(faces[i])
    ensures exists i, j :: Spans(faces, i, j) && Measure(Envelope(faces)).width as int == faces[j].bottom as int - faces[i].top as int
  {
    var e := Envelope(faces);
    SideIsExtreme(faces, LeftSide);
    SideIsExtreme(faces, RightSide);
    var i :| 0 <= i < |faces| && SideOf(e, LeftSide) == FaceSide(faces[i], LeftSide);
    var j :| 0 <= j < |faces| && SideOf(e, RightSide) == FaceSide(faces[j], RightSide);
    assert RectInView(faces[i]) && RectInView(faces[j]);
    WidthInView(e);
    forall k | 0 <= k < |faces|
      ensures faces[i].top <= faces[k].top && faces[k].bottom <= faces[j].bottom
    {
      assert FaceSide(faces[k], LeftSide) <= SideOf(e, LeftSide);
      assert SideOf(e, RightSide) <= FaceSide(faces[k], RightSide);
    }
    assert Spans(faces, i, j);
    assert Measure(e).width as int == faces[j].bottom as int - faces[i].top as int;
  }

  /** Face `i` has the smallest top and face `j` the largest bottom. */
  predicate Spans(faces: seq<Rect>, i: int, j: int) {
    && 0 <= i < |faces| && 0 <= j < |faces|
    && forall k :: 0 <= k < |faces| ==> faces[i].top <= faces[k].top && faces[k].bottom <= faces[j].bottom
  }

  lemma WidthInView(e: Box)
    requires InView(e.left) && InView(e.right)
    ensures Measure(e).width as int == e.left as int - e.right as int
  {
  }

  /** However many faces are in view, the envelope and both centres stay in
      the field of view. */
  lemma EnvelopeInView(faces: seq<Rect>)
    requires forall i :: 0 <= i < |faces| ==> RectInView(faces[i])
    ensures var e := Envelope(faces);
      InView(e.left) && InView(e.top) && InView(e.right) && InView(e.bottom)
    ensures var p := Measure(Envelope(faces));
      InView(p.h) && InView(p.v) && -2000 <= p.width <= 2000
  {
    SideInView(faces, LeftSide);
    SideInView(faces, TopSide);
    SideInView(faces, RightSide);
    SideInView(faces, BottomSide);
    MeasureInView(Envelope(faces));
  }

  /** Truncating division keeps a face whose centre works out at -300.5 in
      the centre band, so it is judged okay; halving with Dafny's Euclidean
      division would give -301 and steer it left. */
  lemma TruncationKeepsCentre()
    ensures Measure(Envelope([Rect(-100, 1, 100, 600)])) == Position(-300, 0, 599)
    ensures Select(1, Measure(Envelope([Rect(-100, 1, 100, 600)]))) == Okay(599, -300)
    ensures Select(1, Position(-601 / 2, 0, 599)) == Left(-301)
  {
    SingleFace(Rect(-100, 1, 100, 600));
    assert JavaDiv(-601, 2) == -300 && JavaDiv(0, 2) == 0;
    MinusSixHundredOneHalved();
  }

  /** One redraw as the controller sees it. */
  datatype Frame = Frame(faces: seq<Rect>, now: int)

  /** Number of lines sent over a run of redraws, and the final time of the
      last command. */
  function Lines(frames: seq<Frame>, last: int): (int, int)
    decreases |frames|
  {
    if |frames| == 0 then (0, last)
    else
      var r := Tick(frames[0].faces, frames[0].now, last);
      var (n, last') := Lines(frames[1..], r.last);
      (n + (if r.line.Some? then 1 else 0), last')
  }

  lemma {:induction false} QuietWithinInterval(frames: seq<Frame>, last: int)
    requires forall i :: 0 <= i < |frames| ==> frames[i].now - last <= MinInterval
    ensures Lines(frames, last).0 == 0
    decreases |frames|
  {
    if |frames| > 0 {
      QuietWithinInterval(frames[1..], last);
    }
  }

  /** A burst of redraws whose clock readings lie within 150 ms of each
      other sends at most one line. */
  lemma {:induction false} AtMostOnePerBurst(frames: seq<Frame>, last: int)
    requires forall i, j :: 0 <= i < j < |frames| ==> frames[j].now - frames[i].now <= MinInterval
    ensures Lines(frames, last).0 <= 1
    decreases |frames|
  {
    if |frames| > 0 {
      var r := Tick(frames[0].faces, frames[0].now, last);
      if r.line.Some? {
        assert forall i :: 0 <= i < |frames[1..]| ==> frames[1..][i].now - r.last <= MinInterval by {
          forall i | 0 <= i < |frames[1..]| ensures frames[1..][i].now - r.last <= MinInterval {
            assert frames[1..][i] == frames[i + 1];
          }
        }
        QuietWithinInterval(frames[1..], r.last);
      } else {
        AtMostOnePerBurst(frames[1..], r.last);
      }
    }
  }
}

=== FILE: ui.dfy ===
/**
 * The activity's handler for the service's messages: the status line, the
 * remembered device name, the last received line, and the proximity
 * trigger for voice recognition.
 */
module Ui {
  import opened Wrappers
  import opened Link
  import Listen

  /** `deviceName` is null (None) until a device name arrives, and stays
      null when the device reported none; `status` and `received` are the
      texts of the status and telemetry views. */
  datatype Screen = Screen(deviceName: Option<string>, status: string, received: string, lastListen: int)

  /** Handling one message may start voice recognition. */
  datatype Handled = Handled(ui: Screen, listen: bool)

  const ConnectingText: string := "Connecting..."
  const NotConnectedText: string := "Not connected."

  /** Status text for the state code a state-change message carries: the
      device name when connected (a null name shows as empty text), fixed
      texts otherwise, and no change for a code the switch does not list. */
  function StatusText(code: int, deviceName: Option<string>): (t: Option<string>)
    ensures code == Code(Connected) ==> t == Some(deviceName.GetOr(""))
    ensures code == Code(Connecting) ==> t == Some(ConnectingText)
    ensures code == Code(Idle) || code == Code(Listen) ==> t == Some(NotConnectedText)
    ensures t.None? <==> code < NoneCode || ConnectedCode < code
  {
    if code == ConnectedCode then Some(deviceName.GetOr(""))
    else if code == ConnectingCode then Some(ConnectingText)
    else if code == ListenCode || code == NoneCode then Some(NotConnectedText)
    else None
  }

  /** The status a state-change message leaves. */
  function StatusAfter(u: Screen, st: ConnState): string {
    StatusText(Code(st), u.deviceName).GetOr(u.status)
  }

  /** One message at clock reading `now`. */
  function Handle(u: Screen, e: Event, now: int): (r: Handled)
    ensures e.StateChange? ==> r == Handled(u.(status := StatusAfter(u, e.state)), false)
    ensures e.StateChange? && e.state == Connected ==> r.ui.status == u.deviceName.GetOr("")
    ensures e.DeviceName? ==> r == Handled(u.(deviceName := e.name), false)
    ensures e.Read? ==> r.ui.received == e.line && r.ui.status == u.status && r.ui.deviceName == u.deviceName
    ensures e.Read? ==> (r.listen <==> Listen.IsProximity(e.line) && now - u.lastListen >= Listen.ListenInterval)
    ensures r.listen ==> r.ui.lastListen == now
    ensures !r.listen ==> r.ui.lastListen == u.lastListen
    ensures e.Toast? || e.Wrote? ==> r == Handled(u, false)
  {
    match e
    case StateChange(st) => Handled(u.(status := StatusAfter(u, st)), false)
    case DeviceName(n) => Handled(u.(deviceName := n), false)
    case Read(line) =>
      if Listen.IsProximity(line) then
        var l := Listen.Request(now, u.lastListen);
        Handled(u.(received := line, lastListen := l.last), l.fired)
      else Handled(u.(received := line), false)
    case Toast(_) => Handled(u, false)
    case Wrote(_) => Handled(u, false)
  }

  /** Messages handled in the order they were posted. */
  function HandleAll(u: Screen, evs: seq<Event>, now: int): Screen
    decreases |evs|
  {
    if |evs| == 0 then u else HandleAll(Handle(u, evs[0], now).ui, evs[1..], now)
  }

  /** onConnected posts the device name before announcing the connected
      state, so the status line shows the new device's name. */
  lemma ConnectedShowsName(u: Screen, s: Service, socket: nat, d: Device, now: int)
    ensures var r := OnConnected(s, socket, d);
      HandleAll(u, r.events[|s.events|..], now).status == d.name.GetOr("")
  {
    var r := OnConnected(s, socket, d);
    var evs := r.events[|s.events|..];
    assert evs == [StateChange(Idle), DeviceName(d.name), StateChange(Connected)];
    var u1 := Handle(u, evs[0], now).ui;
    var u2 := Handle(u1, evs[1], now).ui;
    assert u2.deviceName == d.name;
    assert evs[1..][1..] == [StateChange(Connected)];
    assert HandleAll(u, evs, now) == HandleAll(u2, [StateChange(Connected)], now);
  }
}

=== FILE: utf8.dfy ===
/**
 * The bytes `String.getBytes()` produces under the platform charset
 * (UTF-8), and a decoder that takes them back. Characters are Unicode
 * scalar values, so every character has a well-formed encoding.
 */
module Utf8 {
  import opened Wrappers

  newtype byte = x: int | 0 <= x < 256

  /** Continuation byte carrying six payload bits. */
  function Cont(bits: int): byte
    requires 0 <= bits < 64
  {
    (0x80 + bits) as byte
  }

  predicate IsCont(b: byte) {
    0x80 <= b < 0xC0
  }

  function Payload(b: byte): int
    requires IsCont(b)
  {
    b as int - 0x80
  }

  predicate IsScalar(n: int) {
    (0 <= n < 0xD800) || (0xE000 <= n < 0x11_0000)
  }

  /** One to four bytes for one character, by the size of its code point. */
  function EncodeChar(c: char): (bs: seq<byte>)
    ensures 1 <= |bs| <= 4
    ensures |bs| == 1 <==> (c as int) < 0x80
    ensures |bs| == 1 ==> bs[0] as int == c as int
  {
    var n := c as int;
    if n < 0x80 then [n as byte]
    else if n < 0x800 then [(0xC0 + n / 64) as byte, Cont(n % 64)]
    else if n < 0x1_0000 then [(0xE0 + n / 4096) as byte, Cont(n / 64 % 64), Cont(n % 64)]
    else [(0xF0 + n / 262144) as byte, Cont(n / 4096 % 64), Cont(n / 64 % 64), Cont(n % 64)]
  }

  /** The bytes of a whole string. */
  function Encode(s: string): (bs: seq<byte>)
    ensures |s| <= |bs| <= 4 * |s|
  {
    if |s| == 0 then [] else EncodeChar(s[0]) + Encode(s[1..])
  }

  /** Reads the character at the front of `bs`, with the number of bytes it
      took; None for a malformed or truncated sequence. */
  function DecodeChar(bs: seq<byte>): Option<(char, nat)> {
    if |bs| == 0 then None
    else
      var b0 := bs[0] as int;
      if b0 < 0x80 then Some((b0 as char, 1))
      else if 0xC0 <= b0 < 0xE0 && 2 <= |bs| && IsCont(bs[1]) then
        var n := (b0 - 0xC0) * 64 + Payload(bs[1]);
        if 0x80 <= n then Some((n as char, 2)) else None
      else if 0xE0 <= b0 < 0xF0 && 3 <= |bs| && IsCont(bs[1]) && IsCont(bs[2]) then
        var n := (b0 - 0xE0) * 4096 + Payload(bs[1]) * 64 + Payload(bs[2]);
        if 0x800 <= n && IsScalar(n) then Some((n as char, 3)) else None
      else if 0xF0 <= b0 < 0xF8 && 4 <= |bs| && IsCont(bs[1]) && IsCont(bs[2]) && IsCont(bs[3]) then
        var n := (b0 - 0xF0) * 262144 + Payload(bs[1]) * 4096 + Payload(bs[2]) * 64 + Payload(bs[3]);
        if 0x1_0000 <= n && IsScalar(n) then Some((n as char, 4)) else None
      else None
  }

  /** Decodes a whole byte sequence, failing on any malformed character. */
  function Decode(bs: seq<byte>): Option<string>
    decreases |bs|
  {
    if |bs| == 0 then Some("")
    else match DecodeChar(bs)
      case None => None
      case Some((c, k)) =>
        if k <= |bs| then
          match Decode(bs[k..])
          case None => None
          case Some(rest) => Some([c] + rest)
        else None
  }

  lemma DecodeEncodedChar(c: char, tail: seq<byte>)
    ensures DecodeChar(EncodeChar(c) + tail) == Some((c, |EncodeChar(c)|))
  {
    var n := c as int;
    if n < 0x80 {
    } else if n < 0x800 {
      DecodeTwo(c, tail);
    } else if n < 0x1_0000 {
      DecodeThree(c, tail);
    } else {
      DecodeFour(c, tail);
    }
  }

  lemma DecodeTwo(c: char, tail: seq<byte>)
    requires 0x80 <= c as int < 0x800
    ensures DecodeChar(EncodeChar(c) + tail) == Some((c, 2))
  {
    var n := c as int;
    var bs := EncodeChar(c) + tail;
    assert n == (n / 64) * 64 + n % 64;
    assert bs[0] as int == 0xC0 + n / 64 && Payload(bs[1]) == n % 64;
  }

  lemma DecodeThree(c: char, tail: seq<byte>)
    requires 0x800 <= c as int < 0x1_0000
    ensures DecodeChar(EncodeChar(c) + tail) == Some((c, 3))
  {
    var n := c as int;
    var bs := EncodeChar(c) + tail;
    assert n / 64 == (n / 4096) * 64 + n / 64 % 64;
    assert n == (n / 64) * 64 + n % 64;
    assert bs[0] as int == 0xE0 + n / 4096 && Payload(bs[1]) == n / 64 % 64 && Payload(bs[2]) == n % 64;
  }

  lemma DecodeFour(c: char, tail: seq<byte>)
    requires 0x1_0000 <= c as int
    ensures DecodeChar(EncodeChar(c) + tail) == Some((c, 4))
  {
    var n := c as int;
    var bs := EncodeChar(c) + tail;
    assert n / 4096 == (n / 262144) * 64 + n / 4096 % 64;
    assert n / 64 == (n / 4096) * 64 + n / 64 % 64;
    assert n == (n / 64) * 64 + n % 64;
    assert bs[0] as int == 0xF0 + n / 262144;
    assert Payload(bs[1]) == n / 4096 % 64 && Payload(bs[2]) == n / 64 % 64 && Payload(bs[3]) == n % 64;
  }

  /** The decoder takes the encoder's bytes back to the original string. */
  lemma {:induction false} RoundTrip(s: string)
    ensures Decode(Encode(s)) == Some(s)
  {
    if |s| > 0 {
      var head := EncodeChar(s[0]);
      var bs := Encode(s);
      assert bs == head + Encode(s[1..]);
      DecodeEncodedChar(s[0], Encode(s[1..]));
      assert bs[|head|..] == Encode(s[1..]);
      RoundTrip(s[1..]);
      assert [s[0]] + s[1..] == s;
    }
  }

  /** Text of ASCII characters is sent one byte per character, unchanged. */
  lemma {:induction false} AsciiIsBytewise(s: string)
    requires forall i :: 0 <= i < |s| ==> (s[i] as int) < 0x80
    ensures |Encode(s)| == |s|
    ensures forall i :: 0 <= i < |s| ==> Encode(s)[i] as int == s[i] as int
  {
    if |s| > 0 {
      AsciiIsBytewise(s[1..]);
    }
  }
}

=== FILE: voice.dfy ===
/**
 * Spoken phrases to actuator messages: the most likely recognition result
 * is lower-cased and searched for a fixed list of keywords; the first
 * keyword of the list that occurs decides the message.
 */
module Voice {
  import opened Wrappers
  import opened Text

  /** (keyword, message) pairs in the order they are tried. */
  const Keywords: seq<(string, string)> := [
    ("light on", "light,\n"),
    ("light off", "nolight,\n"),
    ("play", "play,\n"),
    ("stop", "noplay,\n"),
    ("much light", "dimlight,\n"),
    ("hot tea", "relais,\n"),
    ("hot enough", "norelais,\n")
  ]

  /** Index of the first keyword occurring in `phrase`, or `|table|` when
      none does. */
  function FirstHit(phrase: string, table: seq<(string, string)>): (k: nat)
    ensures k <= |table|
    ensures k < |table| ==> Contains(phrase, table[k].0)
    ensures forall j :: 0 <= j < k ==> !Contains(phrase, table[j].0)
  {
    if |table| == 0 then 0
    else if Contains(phrase, table[0].0) then 0
    else 1 + FirstHit(phrase, table[1..])
  }

  /** The message sent for a list of recognition results, best first. */
  function Message(matches: seq<string>): (m: Option<string>)
    ensures |matches| == 0 ==> m.None?
    ensures |matches| > 0 ==>
      (m.None? <==> forall j :: 0 <= j < |Keywords| ==> !Contains(ToLower(matches[0]), Keywords[j].0))
    ensures m.Some? ==> exists k :: (
      && 0 <= k < |Keywords| && m.value == Keywords[k].1
      && Contains(ToLower(matches[0]), Keywords[k].0)
      && forall j :: 0 <= j < k ==> !Contains(ToLower(matches[0]), Keywords[j].0))
  {
    if |matches| == 0 then None
    else
      var k := FirstHit(ToLower(matches[0]), Keywords);
      if k < |Keywords| then Some(Keywords[k].1) else None
  }

  /** Every message is a non-empty line. */
  lemma MessageNonEmpty(matches: seq<string>)
    ensures Message(matches).Some? ==> |Message(matches).value| > 0
  {
  }

  /** The message is that of the first keyword in list order that occurs
      in the lower-cased best result. */
  lemma MessageIsFirstHit(matches: seq<string>, k: nat)
    requires |matches| > 0 && k < |Keywords| && Contains(ToLower(matches[0]), Keywords[k].0)
    requires forall j :: 0 <= j < k ==> !Contains(ToLower(matches[0]), Keywords[j].0)
    ensures Message(matches) == Some(Keywords[k].1)
  {
    var h := FirstHit(ToLower(matches[0]), Keywords);
    assert h == k;
  }

  /** Only the best result is heard, and its letter case does not matter. */
  lemma CaseInsensitive(best: string, best': string, rest: seq<string>, rest': seq<string>)
    requires ToLower(best) == ToLower(best')
    ensures Message([best] + rest) == Message([best'] + rest')
  {
  }

  /** A phrase holding both "play" and "stop" (and no light command) plays:
      "play" comes first in the list. */
  lemma PlayWinsOverStop(phrase: string)
    requires Contains(ToLower(phrase), "play") && Contains(ToLower(phrase), "stop")
    requires !Contains(ToLower(phrase), "light on") && !Contains(ToLower(phrase), "light off")
    ensures Message([phrase]) == Some("play,\n")
  {
    var k := FirstHit(ToLower(phrase), Keywords);
    assert Keywords[2].0 == "play";
    assert k == 2;
  }
}

=== FILE: wrappers.dfy ===
/** The conventional optional value, standing in for Java's `null`. */
module Wrappers {

  datatype Option<+T> = None | Some(value: T) {

    /** Returns the value held in Some, or `default` for None. */
    function GetOr(default: T): T {
      match this
      case Some(v) => v
      case None => default
    }
  }
}
